=== FILE: README.md ===
# CSC212 lists, modelled in Dafny

This project models four implementations of one list interface from the
CSC212 lists assignment (package `edu.smith.cs.csc212.lists`). The interface
offers get, set, add and remove at the front, the back or an index, plus
`size` and `isEmpty`. Each implementation is checked against a plain
sequence: the logical list it presents.

- **FixedSizeList** (`fixed_size_list.dfy`): an array of fixed capacity plus a
  `fill` counter. Insertion shifts right, removal shifts left, and inserting
  into a full list throws RanOutOfSpaceError.
- **GrowableList** (`growable_list.dfy`): a dynamic array. It starts with
  `START_SIZE` = 10 slots and doubles the array when it is full.
- **ChunkyArrayList** (`chunky_array_list.dfy`): a sequence of FixedSizeList
  chunks of `chunkSize` slots each. The logical list is the concatenation of
  the chunks. Every positional operation maps a global index to a chunk by an
  accumulating scan over the chunks (`Locate`).
- **SinglyLinkedList** (`singly_linked_list.dfy`): a node chain. The chain is
  modelled as the sequence of node values, and each pointer walk is a
  recursive function over that sequence.

Shared pieces:
- `common.dfy` holds module `Common`: the error kinds EmptyListError,
  BadIndexError and RanOutOfSpaceError, plus `Result` and `Outcome`.
  It also holds module `Seqs`: the reference definitions of insertion and
  deletion at a position, which every implementation is compared with.
- `array_buffer.dfy` holds module `ArrayBuffer`: the array-plus-`fill`
  representation of the two array lists. A Java array is a
  `seq<Option<T>>`, where `None` is `null`. The shift and copy loops are
  tail-recursive functions, one call per iteration.

Every operation is a pure function. It takes the list and returns the list
after the call, or the error the Java method throws. The helpers
`checkNotEmpty` and `checkExclusiveIndex` of the list base class are not part
of this model. They are modelled as "EmptyListError when the size is 0" and
"BadIndexError unless 0 <= index < size".

Behaviours of the code that a reader might not expect, all modelled as written:
- **Full chunk, interior index.** `ChunkyArrayList.addIndex` never splits a
  full chunk. When the insertion lands strictly inside a full chunk, the
  branch for that case holds only the comment `//should be remove something.`
  (ChunkyArrayList.java:127). Before it, an empty chunk is inserted after the
  full one when that chunk is the last or its successor is full. The item is
  dropped in every case. `ChunkyArrayList.AddInsideFull` models this.
  `ChunkyArrayList.DropsItemExactly` says which indices are affected: with no
  empty chunk, those inside a full chunk and, unless it is the first chunk,
  after its start. Index 0 of a list whose first chunk is full is such a case,
  so `addFront` drops its item there.
- **Insertion on a list without chunks.** On a list without chunks, `addIndex`
  (and so `addFront`) throws BadIndexError for every index, including
  `size()`, where `addBack` would succeed.
  `ChunkyArrayList.AddIndexAtEndMatchesAddBack` proves that inserting at
  `size()` and `addBack` agree once the list has a chunk.
- **`isEmpty`.** `ChunkyArrayList.isEmpty` tests for an empty chunk sequence,
  not for zero elements. The two agree as long as no empty chunk is present
  (`NoEmptyChunk`). Only the interior case above can leave an empty chunk
  behind.
- **No index check in `FixedSizeList.addIndex`.** The method checks only
  that the list has space, never the index (FixedSizeList.java:72-80).

## Model

| member | source | states |
|---|---|---|
| `ArrayBuffer.ShiftRight` | src/main/java/edu/smith/cs/csc212/lists/FixedSizeList.java:73-75 | the right-shift loop moves every slot in (index, fill] to its left neighbour's value and leaves all other slots alone |
| `ArrayBuffer.ShiftLeft` | src/main/java/edu/smith/cs/csc212/lists/FixedSizeList.java:102-104 | the left-shift loop moves every slot in [index, fill-1) to its right neighbour's value and leaves all other slots alone |
| `ArrayBuffer.InsertAt` | src/main/java/edu/smith/cs/csc212/lists/FixedSizeList.java:72-77 | shift then store: the first fill+1 slots are occupied and hold the old elements with v inserted at index |
| `ArrayBuffer.RemoveAt` | src/main/java/edu/smith/cs/csc212/lists/FixedSizeList.java:101-107 | shift then null the last slot: the first fill-1 slots hold the old elements with position index deleted |
| `ArrayBuffer.CopyInto` | src/main/java/edu/smith/cs/csc212/lists/GrowableList.java:84-86 | the resize copy loop gives every slot below the old length the old array's value and leaves the slots above it as they were |
| `FixedSizeList.New` | src/main/java/edu/smith/cs/csc212/lists/FixedSizeList.java:27-30 | a new list is empty, well formed and has exactly the requested capacity |
| `FixedSizeList.IsEmpty` | src/main/java/edu/smith/cs/csc212/lists/FixedSizeList.java:32-35 | true exactly when the list has no elements |
| `FixedSizeList.Size` | src/main/java/edu/smith/cs/csc212/lists/FixedSizeList.java:37-40 | the number of elements in the list |
| `FixedSizeList.IsFull` | src/main/java/edu/smith/cs/csc212/lists/FixedSizeList.java:125-132 | true exactly when the element count equals the capacity |
| `FixedSizeList.SetIndex` | src/main/java/edu/smith/cs/csc212/lists/FixedSizeList.java:42-47 | EmptyListError on an empty list; BadIndexError outside [0, size); otherwise only position index changes and the capacity stays |
| `FixedSizeList.GetIndex` | src/main/java/edu/smith/cs/csc212/lists/FixedSizeList.java:49-54 | EmptyListError on an empty list; BadIndexError outside [0, size); otherwise the element at index |
| `FixedSizeList.GetFront` | src/main/java/edu/smith/cs/csc212/lists/FixedSizeList.java:56-60 | EmptyListError on an empty list, otherwise the first element |
| `FixedSizeList.GetBack` | src/main/java/edu/smith/cs/csc212/lists/FixedSizeList.java:62-67 | EmptyListError on an empty list, otherwise the last element |
| `FixedSizeList.AddIndex` | src/main/java/edu/smith/cs/csc212/lists/FixedSizeList.java:69-81 | a full list throws RanOutOfSpaceError; otherwise the contents become the old ones with value inserted at index, one longer, same capacity |
| `FixedSizeList.AddFront` | src/main/java/edu/smith/cs/csc212/lists/FixedSizeList.java:83-86 | a full list throws RanOutOfSpaceError; otherwise value is prepended |
| `FixedSizeList.AddBack` | src/main/java/edu/smith/cs/csc212/lists/FixedSizeList.java:88-95 | a full list throws RanOutOfSpaceError; otherwise value is appended as the last element |
| `FixedSizeList.RemoveIndex` | src/main/java/edu/smith/cs/csc212/lists/FixedSizeList.java:97-108 | EmptyListError on an empty list; BadIndexError outside [0, size); otherwise returns the element at index and leaves the contents with that position deleted |
| `FixedSizeList.RemoveBack` | src/main/java/edu/smith/cs/csc212/lists/FixedSizeList.java:110-118 | EmptyListError exactly on an empty list and success on every other: the remaining contents followed by the returned element are the old contents |
| `FixedSizeList.RemoveFront` | src/main/java/edu/smith/cs/csc212/lists/FixedSizeList.java:120-123 | EmptyListError exactly on an empty list and success on every other: the returned element followed by the remaining contents are the old contents |
| `FixedSizeList.AddIndexAtEndIsAddBack` | src/main/java/edu/smith/cs/csc212/lists/FixedSizeList.java:69-95 | addIndex(fill, v) builds exactly the same list as addBack(v), including the error on a full list |
| `FixedSizeList.RemoveIndexAtEndIsRemoveBack` | src/main/java/edu/smith/cs/csc212/lists/FixedSizeList.java:97-118 | on a non-empty list, removeIndex(fill-1) returns the same element and list as removeBack |
| `FixedSizeList.AddThenRemove` | src/main/java/edu/smith/cs/csc212/lists/FixedSizeList.java:69-108 | on a list with space, addIndex(i, v) then removeIndex(i) returns v and restores the contents |
| `FixedSizeList.FullRefusesInsertion` | src/main/java/edu/smith/cs/csc212/lists/FixedSizeList.java:69-95 | a list at capacity refuses addIndex, addFront and addBack with RanOutOfSpaceError |
| `GrowableList.New` | src/main/java/edu/smith/cs/csc212/lists/GrowableList.java:34-37 | a new list is empty with capacity START_SIZE = 10 |
| `GrowableList.GrownCapacityShape` | src/main/java/edu/smith/cs/csc212/lists/GrowableList.java:80-88 | every capacity reachable by doubling from START_SIZE is at least 10 and a multiple of 10 |
| `GrowableList.ResizeArray` | src/main/java/edu/smith/cs/csc212/lists/GrowableList.java:77-88 | doubles the capacity exactly when fill >= capacity and otherwise changes nothing; every existing slot keeps its value and position; afterwards there is a free slot |
| `GrowableList.AddBack` | src/main/java/edu/smith/cs/csc212/lists/GrowableList.java:69-75 | never fails: the item is appended, the invariant holds, and the capacity doubles exactly when the list was full and is otherwise unchanged |
| `GrowableList.AddIndex` | src/main/java/edu/smith/cs/csc212/lists/GrowableList.java:90-108 | BadIndexError exactly when index is outside [0, size], with the contents unchanged; otherwise item is inserted at index; the capacity doubles exactly when the list was full, even when the call throws |
| `GrowableList.AddFront` | src/main/java/edu/smith/cs/csc212/lists/GrowableList.java:64-67 | never fails; the item is prepended; the capacity doubles exactly when the list was full and is otherwise unchanged |
| `GrowableList.RemoveIndex` | src/main/java/edu/smith/cs/csc212/lists/GrowableList.java:51-62 | EmptyListError on an empty list; BadIndexError outside [0, size); otherwise returns the element at index and deletes exactly that position |
| `GrowableList.RemoveFront` | src/main/java/edu/smith/cs/csc212/lists/GrowableList.java:39-43 | EmptyListError exactly on an empty list and success on every other: removes and returns the first element; the capacity is unchanged |
| `GrowableList.RemoveBack` | src/main/java/edu/smith/cs/csc212/lists/GrowableList.java:45-49 | EmptyListError exactly on an empty list and success on every other: removes and returns the last element; the capacity is unchanged |
| `GrowableList.GetFront` | src/main/java/edu/smith/cs/csc212/lists/GrowableList.java:110-114 | EmptyListError on an empty list, otherwise the first element |
| `GrowableList.GetBack` | src/main/java/edu/smith/cs/csc212/lists/GrowableList.java:116-120 | EmptyListError on an empty list, otherwise the last element |
| `GrowableList.GetIndex` | src/main/java/edu/smith/cs/csc212/lists/GrowableList.java:122-127 | EmptyListError on an empty list; BadIndexError outside [0, size); otherwise the element at index |
| `GrowableList.Size` | src/main/java/edu/smith/cs/csc212/lists/GrowableList.java:129-132 | the number of elements |
| `GrowableList.IsEmpty` | src/main/java/edu/smith/cs/csc212/lists/GrowableList.java:134-137 | true exactly when there are no elements |
| `GrowableList.SetIndex` | src/main/java/edu/smith/cs/csc212/lists/GrowableList.java:139-144 | EmptyListError on an empty list; BadIndexError outside [0, size); otherwise only position index changes and the capacity stays |
| `GrowableList.AddThenRemove` | src/main/java/edu/smith/cs/csc212/lists/GrowableList.java:51-108 | for a valid index, addIndex(i, v) succeeds and removeIndex(i) then returns v and restores the contents |
| `GrowableList.AddBackIsAddIndexAtEnd` | src/main/java/edu/smith/cs/csc212/lists/GrowableList.java:69-108 | addIndex(size, v) succeeds and leaves the same contents as addBack(v) |
| `ChunkyArrayList.New` | src/main/java/edu/smith/cs/csc212/lists/ChunkyArrayList.java:30-33 | a new list stores the given chunk size, has no chunks and no elements, and satisfies the chunk invariants |
| `ChunkyArrayList.MakeChunk` | src/main/java/edu/smith/cs/csc212/lists/ChunkyArrayList.java:35-37 | a fresh chunk is an empty FixedSizeList of capacity chunkSize |
| `ChunkyArrayList.Locate` | src/main/java/edu/smith/cs/csc212/lists/ChunkyArrayList.java:161-173 | the chunk scan returns the first chunk whose range holds index, with its accumulated start equal to its true offset; it finds nothing exactly when index is outside [0, size), or for insertion outside [0, size] or when there are no chunks |
| `ChunkyArrayList.LocatedElement` | src/main/java/edu/smith/cs/csc212/lists/ChunkyArrayList.java:167-168 | the element at local offset index - start of the chunk found is the element at global position index |
| `ChunkyArrayList.SizeFrom` | src/main/java/edu/smith/cs/csc212/lists/ChunkyArrayList.java:197-201 | the size loop adds up the chunk sizes, which is the length of the concatenation |
| `ChunkyArrayList.Size` | src/main/java/edu/smith/cs/csc212/lists/ChunkyArrayList.java:195-202 | size() is the length of the logical list |
| `ChunkyArrayList.IsEmpty` | src/main/java/edu/smith/cs/csc212/lists/ChunkyArrayList.java:204-207 | no chunks implies no elements, and the converse holds when no chunk is empty |
| `ChunkyArrayList.GetIndex` | src/main/java/edu/smith/cs/csc212/lists/ChunkyArrayList.java:156-175 | EmptyListError without chunks; BadIndexError outside [0, size); otherwise the element at index of the concatenation |
| `ChunkyArrayList.GetFront` | src/main/java/edu/smith/cs/csc212/lists/ChunkyArrayList.java:145-148 | EmptyListError without chunks, otherwise the first element when there is one |
| `ChunkyArrayList.GetBack` | src/main/java/edu/smith/cs/csc212/lists/ChunkyArrayList.java:150-153 | EmptyListError without chunks, otherwise the last element when there is one |
| `ChunkyArrayList.SetIndex` | src/main/java/edu/smith/cs/csc212/lists/ChunkyArrayList.java:177-193 | the errors of getIndex; otherwise only position index of the concatenation changes, and the number and sizes of the chunks stay the same |
| `ChunkyArrayList.RemoveAtPosition` | src/main/java/edu/smith/cs/csc212/lists/ChunkyArrayList.java:63-68 | returns the element at index and deletes it from the concatenation; the chunk goes away exactly when it held one element; no empty chunk is left behind |
| `ChunkyArrayList.RemoveIndex` | src/main/java/edu/smith/cs/csc212/lists/ChunkyArrayList.java:53-74 | EmptyListError without chunks; BadIndexError outside [0, size); otherwise returns the element at index and deletes that position; the chunk count drops by at most one and "no empty chunk" is preserved |
| `ChunkyArrayList.GetThenRemove` | src/main/java/edu/smith/cs/csc212/lists/ChunkyArrayList.java:40-51 | getIndex then removeIndex at one index: EmptyListError without chunks, BadIndexError outside [0, size), otherwise returns the element at index and deletes exactly that position, keeping the chunk size and "no empty chunk" |
| `ChunkyArrayList.RemoveFront` | src/main/java/edu/smith/cs/csc212/lists/ChunkyArrayList.java:39-44 | EmptyListError without chunks; otherwise removes and returns the first element, keeping the chunk size and "no empty chunk" |
| `ChunkyArrayList.RemoveBack` | src/main/java/edu/smith/cs/csc212/lists/ChunkyArrayList.java:46-51 | EmptyListError without chunks; otherwise removes and returns the last element, keeping the chunk size and "no empty chunk" |
| `ChunkyArrayList.AppendChunk` | src/main/java/edu/smith/cs/csc212/lists/ChunkyArrayList.java:84-91 | adds exactly one chunk, at the end, holding just item; every earlier chunk is unchanged and item is appended to the logical list |
| `ChunkyArrayList.AppendInLastChunk` | src/main/java/edu/smith/cs/csc212/lists/ChunkyArrayList.java:93 | the chunk count stays; every chunk but the last is unchanged and the last chunk's contents gain item at their end |
| `ChunkyArrayList.AddBack` | src/main/java/edu/smith/cs/csc212/lists/ChunkyArrayList.java:81-96 | appends item to the logical list; a chunk is added exactly when there are no chunks or the last one is full, and the new last chunk then holds one element, otherwise the last chunk grows by one; all chunks before the last are unchanged (and the last too when a chunk is added); "no empty chunk" and "every chunk but the last is full" are preserved |
| `ChunkyArrayList.AddInChunk` | src/main/java/edu/smith/cs/csc212/lists/ChunkyArrayList.java:130-133 | insertion into a chunk with space puts item into that chunk at local offset index - start, which is global position index; no chunk is added and every other chunk is unchanged |
| `ChunkyArrayList.AddAfterFull` | src/main/java/edu/smith/cs/csc212/lists/ChunkyArrayList.java:111-125 | at the end of a full chunk, item lands at global position index; a chunk holding just item is inserted after chunk j exactly when j is the last chunk or its successor is full, and otherwise item is prepended to chunk j+1; chunks up to j keep their place and the others move up by one or stay |
| `ChunkyArrayList.AddNewChunkAfter` | src/main/java/edu/smith/cs/csc212/lists/ChunkyArrayList.java:116-125 | exactly one chunk is added, at position j+1, holding just item; chunks before it keep their positions and those after move up by one; the logical list gets item at the boundary offset |
| `ChunkyArrayList.AddFrontOfNext` | src/main/java/edu/smith/cs/csc212/lists/ChunkyArrayList.java:120-125 | the chunk count stays, only chunk j+1 changes and its contents become item followed by the old contents; the logical list gets item at that chunk's offset |
| `ChunkyArrayList.AddInsideFull` | src/main/java/edu/smith/cs/csc212/lists/ChunkyArrayList.java:114-128 | inside a full chunk nothing is inserted: the logical list is unchanged, though an empty chunk may be added |
| `ChunkyArrayList.AddIndex` | src/main/java/edu/smith/cs/csc212/lists/ChunkyArrayList.java:98-143 | BadIndexError exactly when there are no chunks or index is outside [0, size]; otherwise item is inserted at index unless the interior-full case applies, in which case the list is unchanged |
| `ChunkyArrayList.DropsItemExactly` | src/main/java/edu/smith/cs/csc212/lists/ChunkyArrayList.java:105-135 | with no empty chunk, addIndex(i, x) loses x exactly when i lies in a full chunk's range [start, end) and, unless that is the first chunk, i > start, since the scan takes the first chunk whose inclusive range holds i |
| `ChunkyArrayList.AddFront` | src/main/java/edu/smith/cs/csc212/lists/ChunkyArrayList.java:76-79 | fails with BadIndexError exactly when there are no chunks and succeeds otherwise; it drops item exactly when the first chunk is full, leaving the list unchanged, and prepends it otherwise |
| `ChunkyArrayList.AddIndexAtEndMatchesAddBack` | src/main/java/edu/smith/cs/csc212/lists/ChunkyArrayList.java:98-143 | on a list with chunks, addIndex(size, x) never drops x and gives the same logical list as addBack(x) |
| `ChunkyArrayList.AddThenRemove` | src/main/java/edu/smith/cs/csc212/lists/ChunkyArrayList.java:53-143 | an insertion that places its item, followed by removeIndex at the same index, returns the item and restores the logical list |
| `ChunkyArrayList.PackedOffset` | src/main/java/edu/smith/cs/csc212/lists/ChunkyArrayList.java:81-96 | when every chunk but the last is full, chunk m starts at m * chunkSize |
| `ChunkyArrayList.PackedLayout` | src/main/java/edu/smith/cs/csc212/lists/ChunkyArrayList.java:81-96 | such a list uses the fewest chunks: (chunks-1) * chunkSize < size <= chunks * chunkSize |
| `ChunkyArrayList.AppendSevenIntoChunksOfThree` | src/main/java/edu/smith/cs/csc212/lists/ChunkyArrayList.java:81-96 | seven appends with chunk size 3 give chunk sizes 3, 3, 1, and getIndex(5) is the sixth item |
| `ChunkyArrayList.InsertAtFullBoundary` | src/main/java/edu/smith/cs/csc212/lists/ChunkyArrayList.java:111-125 | with chunks [A,B][C,D], addIndex(2, X) gives [A,B,X,C,D] in three chunks |
| `SinglyLinkedList.CountNodes` | src/main/java/edu/smith/cs/csc212/lists/SinglyLinkedList.java:147-151 | the counting walk adds the number of remaining nodes to the count |
| `SinglyLinkedList.Size` | src/main/java/edu/smith/cs/csc212/lists/SinglyLinkedList.java:145-152 | size() is the number of nodes |
| `SinglyLinkedList.IsEmpty` | src/main/java/edu/smith/cs/csc212/lists/SinglyLinkedList.java:154-157 | start is null exactly when size() is 0 |
| `SinglyLinkedList.RemoveFront` | src/main/java/edu/smith/cs/csc212/lists/SinglyLinkedList.java:21-27 | EmptyListError exactly on an empty chain and success on every other: returns the head and leaves the tail |
| `SinglyLinkedList.CutLast` | src/main/java/edu/smith/cs/csc212/lists/SinglyLinkedList.java:38-45 | the walk to the second-to-last node returns the last value and leaves the prefix |
| `SinglyLinkedList.RemoveBack` | src/main/java/edu/smith/cs/csc212/lists/SinglyLinkedList.java:29-46 | EmptyListError exactly on an empty chain and success on every other: returns the last value and leaves the prefix, so one node becomes an empty chain |
| `SinglyLinkedList.UnlinkAfter` | src/main/java/edu/smith/cs/csc212/lists/SinglyLinkedList.java:57-65 | after walking steps nodes, unlinking the next node returns the value at steps+1 and deletes exactly that position |
| `SinglyLinkedList.RemoveIndexAsWritten` | src/main/java/edu/smith/cs/csc212/lists/SinglyLinkedList.java:48-66 | EmptyListError on an empty chain; for 0 <= index < size returns and deletes that element; a negative index removes the second node |
| `SinglyLinkedList.RemoveIndex` | src/main/java/edu/smith/cs/csc212/lists/SinglyLinkedList.java:48-66 | with the missing bounds check added: EmptyListError on an empty chain, BadIndexError outside [0, size), otherwise returns and deletes the element at index |
| `SinglyLinkedList.AddFront` | src/main/java/edu/smith/cs/csc212/lists/SinglyLinkedList.java:68-71 | the item becomes the head and the old chain its tail |
| `SinglyLinkedList.LinkLast` | src/main/java/edu/smith/cs/csc212/lists/SinglyLinkedList.java:78-82 | the walk to the last node links item after it |
| `SinglyLinkedList.AddBack` | src/main/java/edu/smith/cs/csc212/lists/SinglyLinkedList.java:73-84 | the result is the old chain followed by item, also on an empty chain |
| `SinglyLinkedList.LinkAfter` | src/main/java/edu/smith/cs/csc212/lists/SinglyLinkedList.java:93-98 | after walking steps nodes, the new node is linked in at position steps+1 |
| `SinglyLinkedList.AddIndex` | src/main/java/edu/smith/cs/csc212/lists/SinglyLinkedList.java:86-100 | BadIndexError exactly when index is outside [0, size]; otherwise item is inserted at index |
| `SinglyLinkedList.GetFront` | src/main/java/edu/smith/cs/csc212/lists/SinglyLinkedList.java:102-106 | EmptyListError on an empty chain, otherwise the head value |
| `SinglyLinkedList.LastValue` | src/main/java/edu/smith/cs/csc212/lists/SinglyLinkedList.java:111-115 | the walk to the last node returns the last value |
| `SinglyLinkedList.GetBack` | src/main/java/edu/smith/cs/csc212/lists/SinglyLinkedList.java:108-116 | EmptyListError on an empty chain, otherwise the last value |
| `SinglyLinkedList.FindAt` | src/main/java/edu/smith/cs/csc212/lists/SinglyLinkedList.java:121-127 | the counting walk answers the node whose count equals index, and BadIndexError when it runs off the end |
| `SinglyLinkedList.GetIndex` | src/main/java/edu/smith/cs/csc212/lists/SinglyLinkedList.java:118-128 | EmptyListError on an empty chain; BadIndexError outside [0, size); otherwise the value at index |
| `SinglyLinkedList.Overwrite` | src/main/java/edu/smith/cs/csc212/lists/SinglyLinkedList.java:136-142 | the walk over all nodes replaces exactly the value whose count equals index |
| `SinglyLinkedList.SetIndex` | src/main/java/edu/smith/cs/csc212/lists/SinglyLinkedList.java:130-143 | EmptyListError on an empty chain; BadIndexError outside [0, size); otherwise only position index changes |
| `SinglyLinkedList.AddThenRemove` | src/main/java/edu/smith/cs/csc212/lists/SinglyLinkedList.java:48-100 | addIndex(i, x) for a valid i, followed by removeIndex(i), returns x and the original chain |
| `SinglyLinkedList.EndsAreIndices` | src/main/java/edu/smith/cs/csc212/lists/SinglyLinkedList.java:68-100 | addFront is addIndex(0) and addBack is addIndex(size) |
| `SinglyLinkedList.NegativeIndexRemovesSecond` | src/main/java/edu/smith/cs/csc212/lists/SinglyLinkedList.java:48-66 | as written, removeIndex(-1) on [a, b, c] returns b and leaves [a, c]; the corrected version throws BadIndexError |

## Left out

- Java `int` is 32 bits. Overflow of `fill++`, of `size() * 2` in `resizeArray`, and of the accumulated `start` in the chunk scan is not modelled: all counters are unbounded integers.
- The list base class, `ArrayWrapper` and the error classes are not part of this model. Their behaviour is described in the introduction.
- FixedSizeList.AddIndex: on a list with space, the model requires `0 <= index <= fill`. An index below 0 or at or past the capacity reaches the bounds check of `ArrayWrapper`, which is not part of this model. For `fill < index < capacity` the shift loop does not run: the value is stored at slot `index` and `fill` is incremented. That leaves a null inside the used slots and the value outside them, a state the `Filled` invariant (the first `fill` slots are occupied) cannot represent.
- SinglyLinkedList.RemoveIndexAsWritten: an index at or past the end, or a negative index on a one-node chain, dereferences null. Those inputs are excluded by its precondition.
- ChunkyArrayList.New: a `chunkSize` of zero or less is excluded. The constructor does not check it, but such a list can never hold an element.
- ChunkyArrayList.AddIndex: in the interior-full case the contract states only that the logical list is unchanged. It does not say whether an empty chunk was inserted, and "no empty chunk" is not preserved there. The code has no split policy, and none is invented here.
- ChunkyArrayList keeps its chunks in a GrowableList. Here they are a plain sequence; the GrowableList model proves the insertion and deletion this relies on. The Java identity test `chunks.getBack() == chunk` becomes "the found chunk is the last position".
- The `for (chunk : chunks)` loops use an iterator that is not part of this model. They are modelled as a scan over the sequence in order.
- Setting vacated node values and links to `null` in SinglyLinkedList has no observable effect and is not modelled. Nulling the vacated array slot in the array lists is modelled.
- Node identity and the heap: the chain is a sequence of values.
- Amortised and asymptotic costs cannot be stated in this model.

## Findings

| source | as written | input that shows it | evidently intended | confidence | as-written member | corrected member |
|---|---|---|---|---|---|---|
| src/main/java/edu/smith/cs/csc212/lists/SinglyLinkedList.java:48-66 | `removeIndex` has no bounds check; for a negative index the walk loop does not run and the node after `start` is unlinked | `removeIndex(-1)` on the chain [a, b, c] returns b and leaves [a, c] | BadIndexError for an index outside [0, size), as `addIndex`, `getIndex` and `setIndex` of the same class throw | high; not executed | `SinglyLinkedList.NegativeIndexRemovesSecond` | `SinglyLinkedList.RemoveIndex` |

=== FILE: array_buffer.dfy ===
/**
 The array-plus-fill-counter representation shared by FixedSizeList and
 GrowableList. A Java array of references is a `seq<Option<T>>` (`None` is
 `null`); the first `fill` slots hold the list's elements. The shifting `for`
 loops of the two classes are written as tail-recursive functions, one call
 per loop iteration.
 */
module ArrayBuffer {
  import opened Common
  import Seqs

  /** The first `fill` slots of `a` are occupied. */
  predicate Filled<T>(a: seq<Option<T>>, fill: int)
  {
    && 0 <= fill <= |a|
    && forall k :: 0 <= k < fill ==> a[k].Some?
  }

  /** The elements held in the first `fill` slots, in order. */
  function Elements<T>(a: seq<Option<T>>, fill: int): seq<T>
    requires Filled(a, fill)
  {
    seq(fill, k requires 0 <= k < fill => a[k].value)
  }

  /** An array of `n` null slots, as `new ArrayWrapper<>(n)` creates it. */
  function NullArray<T>(n: nat): (a: seq<Option<T>>)
    ensures |a| == n && Filled(a, 0)
  {
    seq(n, _ => None)
  }

  /**
   The right-shift loop `for (i = fill; i > index; i--) a[i] = a[i-1]`, from
   iteration `i` on: every slot in `(lo, i]` takes its left neighbour's value,
   everything else is left alone.
   */
  function ShiftRight<T>(a: seq<Option<T>>, i: int, lo: int): (r: seq<Option<T>>)
    requires 0 <= lo <= i < |a|
    ensures |r| == |a|
    ensures forall k :: 0 <= k <= lo ==> r[k] == a[k]
    ensures forall k :: lo < k <= i ==> r[k] == a[k - 1]
    ensures forall k :: i < k < |a| ==> r[k] == a[k]
    decreases i - lo
  {
    if i > lo then ShiftRight(a[i := a[i - 1]], i - 1, lo) else a
  }

  /**
   The left-shift loop `for (i = index; i < fill-1; i++) a[i] = a[i+1]`, from
   iteration `i` on (`hi` is `fill-1`): every slot in `[i, hi)` takes its right
   neighbour's value, everything else is left alone.
   */
  function ShiftLeft<T>(a: seq<Option<T>>, i: int, hi: int): (r: seq<Option<T>>)
    requires 0 <= i <= hi < |a|
    ensures |r| == |a|
    ensures forall k :: 0 <= k < i ==> r[k] == a[k]
    ensures forall k :: i <= k < hi ==> r[k] == a[k + 1]
    ensures forall k :: hi <= k < |a| ==> r[k] == a[k]
    decreases hi - i
  {
    if i < hi then ShiftLeft(a[i := a[i + 1]], i + 1, hi) else a
  }

  /**
   Insertion into a non-full buffer: shift `[index, fill)` one slot right, then
   store `v` at `index`. The elements become those of the abstract insertion.
   */
  function InsertAt<T>(a: seq<Option<T>>, fill: int, index: int, v: T): (r: seq<Option<T>>)
    requires Filled(a, fill) && fill < |a|
    requires 0 <= index <= fill
    ensures |r| == |a|
    ensures Filled(r, fill + 1)
    ensures Elements(r, fill + 1) == Seqs.Insert(Elements(a, fill), index, v)
  {
    var r := ShiftRight(a, fill, index)[index := Some(v)];
    assert Filled(r, fill + 1) by {
      forall k | 0 <= k < fill + 1
        ensures r[k].Some?
      {
        if k != index {
          assert k < index || index < k <= fill;
        }
      }
    }
    var e, s := Elements(r, fill + 1), Elements(a, fill);
    assert e == Seqs.Insert(s, index, v) by {
      var t := Seqs.Insert(s, index, v);
      assert |e| == |t|;
      forall k | 0 <= k < |e|
        ensures e[k] == t[k]
      {
        if k < index {
          assert t[k] == s[k];
        } else if k > index {
          assert t[k] == s[k - 1];
        }
      }
    }
    r
  }

  /**
   Removal of the element at `index`: shift `(index, fill)` one slot left and
   null the vacated last slot. The elements become those of the abstract deletion.
   */
  function RemoveAt<T>(a: seq<Option<T>>, fill: int, index: int): (r: seq<Option<T>>)
    requires Filled(a, fill)
    requires 0 <= index < fill
    ensures |r| == |a|
    ensures Filled(r, fill - 1)
    ensures Elements(r, fill - 1) == Seqs.Delete(Elements(a, fill), index)
  {
    var r := ShiftLeft(a, index, fill - 1)[fill - 1 := None];
    var e, s := Elements(r, fill - 1), Elements(a, fill);
    assert e == Seqs.Delete(s, index) by {
      var t := Seqs.Delete(s, index);
      assert |e| == |t|;
      forall k | 0 <= k < |e|
        ensures e[k] == t[k]
      {
        if k < index {
          assert t[k] == s[k];
        } else {
          assert t[k] == s[k + 1];
        }
      }
    }
    r
  }

  /**
   The copy loop of a resize, `for (i = 0; i < src.size(); i++) dst[i] = src[i]`,
   from iteration `i` on: slots `[i, |src|)` of `dst` receive `src`'s slots,
   all other slots keep their value.
   */
  function CopyInto<T>(dst: seq<Option<T>>, src: seq<Option<T>>, i: int): (r: seq<Option<T>>)
    requires |src| <= |dst|
    requires 0 <= i <= |src|
    ensures |r| == |dst|
    ensures forall k :: i <= k < |src| ==> r[k] == src[k]
    ensures forall k :: 0 <= k < i ==> r[k] == dst[k]
    ensures forall k :: |src| <= k < |dst| ==> r[k] == dst[k]
    decreases |src| - i
  {
    if i < |src| then CopyInto(dst[i := src[i]], src, i + 1) else dst
  }
}

=== FILE: chunky_array_list.dfy ===
/**
 ChunkyArrayList: one logical list stored as a sequence of FixedSizeList
 chunks of `chunkSize` slots each. The logical list is the concatenation of
 the chunks' contents. Every positional operation finds its chunk by the same
 accumulating scan: walk the chunks keeping `start`, the global index of the
 current chunk's first element, and stop at the first chunk whose range holds
 the index.

 In the source the chunks live in a GrowableList; here they are a plain
 sequence, whose insertion and deletion the GrowableList model shows it
 implements.
 */
module ChunkyArrayList {
  import opened Common
  import FixedSizeList
  import Seqs

  type Chunk<T> = FixedSizeList.List<T>

  datatype List<T> = List(chunkSize: int, chunks: seq<Chunk<T>>)

  /** Every chunk is a well-formed FixedSizeList. */
  predicate AllValid<T>(cs: seq<Chunk<T>>)
  {
    forall j :: 0 <= j < |cs| ==> FixedSizeList.Valid(cs[j])
  }

  /**
   The structural invariant: a positive chunk size, and every chunk is a
   well-formed FixedSizeList of exactly `chunkSize` slots, hence holds at most
   `chunkSize` elements.
   */
  predicate Valid<T>(l: List<T>)
  {
    && l.chunkSize > 0
    && AllValid(l.chunks)
    && forall j :: 0 <= j < |l.chunks| ==> FixedSizeList.Capacity(l.chunks[j]) == l.chunkSize
  }

  /** No chunk in the sequence is empty. */
  predicate NoEmptyChunk<T>(cs: seq<Chunk<T>>)
  {
    forall j :: 0 <= j < |cs| ==> cs[j].fill > 0
  }

  /** The concatenation of the chunks' contents, in chunk order. */
  function Concat<T>(cs: seq<Chunk<T>>): seq<T>
    requires AllValid(cs)
  {
    if |cs| == 0 then [] else FixedSizeList.Contents(cs[0]) + Concat(cs[1..])
  }

  /** The abstraction: the logical list. */
  function Elements<T>(l: List<T>): seq<T>
    requires AllValid(l.chunks)
  {
    Concat(l.chunks)
  }

  /** The global index of the first element of chunk `j`. */
  function Offset<T>(cs: seq<Chunk<T>>, j: int): (o: int)
    requires AllValid(cs) && 0 <= j <= |cs|
    ensures 0 <= o <= |Concat(cs)|
  {
    ConcatPrefix(cs, j);
    |Concat(cs[..j])|
  }

  // ---------------------------------------------------------------------
  // Facts about the concatenation
  // ---------------------------------------------------------------------

  lemma {:induction false} ConcatAppend<T>(a: seq<Chunk<T>>, b: seq<Chunk<T>>)
    requires AllValid(a) && AllValid(b)
    ensures AllValid(a + b)
    ensures Concat(a + b) == Concat(a) + Concat(b)
    decreases |a|
  {
    if |a| == 0 {
      assert a + b == b;
    } else {
      assert (a + b)[1..] == a[1..] + b;
      ConcatAppend(a[1..], b);
    }
  }

  /** The concatenation split at chunk boundary `j`. */
  lemma ConcatPrefix<T>(cs: seq<Chunk<T>>, j: int)
    requires AllValid(cs) && 0 <= j <= |cs|
    ensures Concat(cs) == Concat(cs[..j]) + Concat(cs[j..])
  {
    assert cs == cs[..j] + cs[j..];
    ConcatAppend(cs[..j], cs[j..]);
  }

  /** One unfolding of the concatenation. */
  lemma ConcatCons<T>(cs: seq<Chunk<T>>)
    requires AllValid(cs) && |cs| > 0
    ensures AllValid(cs[1..])
    ensures Concat(cs) == FixedSizeList.Contents(cs[0]) + Concat(cs[1..])
  {
  }

  /** The concatenation split around chunk `j`. */
  lemma ConcatSplit<T>(cs: seq<Chunk<T>>, j: int)
    requires AllValid(cs) && 0 <= j < |cs|
    ensures Concat(cs) == Concat(cs[..j]) + FixedSizeList.Contents(cs[j]) + Concat(cs[j + 1..])
  {
    var b, m, a := Concat(cs[..j]), FixedSizeList.Contents(cs[j]), Concat(cs[j + 1..]);
    assert Concat(cs) == b + Concat(cs[j..]) by {
      ConcatPrefix(cs, j);
    }
    assert Concat(cs[j..]) == m + a by {
      ConcatCons(cs[j..]);
      assert cs[j..][1..] == cs[j + 1..];
    }
    Seqs.AppendAssoc(b, m, a);
  }

  /** Chunk `j + 1` starts where chunk `j` ends. */
  lemma OffsetNext<T>(cs: seq<Chunk<T>>, j: int)
    requires AllValid(cs) && 0 <= j < |cs|
    ensures Offset(cs, j + 1) == Offset(cs, j) + cs[j].fill
  {
    assert cs[..j + 1] == cs[..j] + [cs[j]];
    ConcatAppend(cs[..j], [cs[j]]);
    assert [cs[j]][1..] == [];
  }

  /** The concatenation after replacing chunk `j` by `c`. */
  lemma ConcatReplace<T>(cs: seq<Chunk<T>>, j: int, c: Chunk<T>)
    requires AllValid(cs) && 0 <= j < |cs| && FixedSizeList.Valid(c)
    ensures AllValid(cs[j := c])
    ensures Concat(cs[j := c]) == Concat(cs[..j]) + FixedSizeList.Contents(c) + Concat(cs[j + 1..])
  {
    var cs' := cs[j := c];
    assert cs'[..j] == cs[..j];
    assert cs'[j + 1..] == cs[j + 1..];
    ConcatSplit(cs', j);
  }

  /** The concatenation after inserting chunk `c` at position `j`. */
  lemma ConcatInsert<T>(cs: seq<Chunk<T>>, j: int, c: Chunk<T>)
    requires AllValid(cs) && 0 <= j <= |cs| && FixedSizeList.Valid(c)
    ensures AllValid(cs[..j] + [c] + cs[j..])
    ensures Concat(cs[..j] + [c] + cs[j..]) == Concat(cs[..j]) + FixedSizeList.Contents(c) + Concat(cs[j..])
  {
    var cs' := cs[..j] + [c] + cs[j..];
    assert cs'[..j] == cs[..j];
    assert cs'[j + 1..] == cs[j..];
    ConcatSplit(cs', j);
  }

  /** The concatenation after deleting chunk `j`. */
  lemma ConcatDelete<T>(cs: seq<Chunk<T>>, j: int)
    requires AllValid(cs) && 0 <= j < |cs|
    ensures AllValid(cs[..j] + cs[j + 1..])
    ensures Concat(cs[..j] + cs[j + 1..]) == Concat(cs[..j]) + Concat(cs[j + 1..])
  {
    ConcatAppend(cs[..j], cs[j + 1..]);
  }

  /** Replacing chunk `j` by a well-formed chunk of the same capacity keeps the invariant. */
  lemma ReplaceChunk<T>(l: List<T>, j: int, c: Chunk<T>)
    requires Valid(l) && 0 <= j < |l.chunks|
    requires FixedSizeList.Valid(c) && FixedSizeList.Capacity(c) == l.chunkSize
    ensures Valid(List(l.chunkSize, l.chunks[j := c]))
    ensures Concat(l.chunks[j := c]) == Concat(l.chunks[..j]) + FixedSizeList.Contents(c) + Concat(l.chunks[j + 1..])
    ensures NoEmptyChunk(l.chunks) && c.fill > 0 ==> NoEmptyChunk(l.chunks[j := c])
  {
    ConcatReplace(l.chunks, j, c);
  }

  /** Inserting a well-formed chunk of capacity `chunkSize` at position `j` keeps the invariant. */
  lemma InsertChunk<T>(l: List<T>, j: int, c: Chunk<T>)
    requires Valid(l) && 0 <= j <= |l.chunks|
    requires FixedSizeList.Valid(c) && FixedSizeList.Capacity(c) == l.chunkSize
    ensures Valid(List(l.chunkSize, l.chunks[..j] + [c] + l.chunks[j..]))
    ensures Concat(l.chunks[..j] + [c] + l.chunks[j..])
            == Concat(l.chunks[..j]) + FixedSizeList.Contents(c) + Concat(l.chunks[j..])
    ensures NoEmptyChunk(l.chunks) && c.fill > 0 ==> NoEmptyChunk(l.chunks[..j] + [c] + l.chunks[j..])
  {
    var cs := l.chunks;
    var cs' := cs[..j] + [c] + cs[j..];
    ConcatInsert(cs, j, c);
    assert forall i :: 0 <= i < |cs'| && i != j ==> cs'[i] == cs[if i < j then i else i - 1];
  }

  /** Deleting chunk `j` keeps the invariant. */
  lemma DeleteChunk<T>(l: List<T>, j: int)
    requires Valid(l) && 0 <= j < |l.chunks|
    ensures Valid(List(l.chunkSize, l.chunks[..j] + l.chunks[j + 1..]))
    ensures Concat(l.chunks[..j] + l.chunks[j + 1..]) == Concat(l.chunks[..j]) + Concat(l.chunks[j + 1..])
    ensures NoEmptyChunk(l.chunks) ==> NoEmptyChunk(l.chunks[..j] + l.chunks[j + 1..])
  {
    var cs := l.chunks;
    var cs' := cs[..j] + cs[j + 1..];
    ConcatDelete(cs, j);
    assert forall i :: 0 <= i < |cs'| ==> cs'[i] == cs[if i < j then i else i + 1];
  }

  /** With no empty chunk, the concatenation is empty only when there are no chunks. */
  lemma NonEmptyConcat<T>(cs: seq<Chunk<T>>)
    requires AllValid(cs) && NoEmptyChunk(cs) && |cs| > 0
    ensures |Concat(cs)| > 0
  {
    assert |FixedSizeList.Contents(cs[0])| == cs[0].fill;
  }

  // ---------------------------------------------------------------------
  // Chunk edits seen through the abstraction
  // ---------------------------------------------------------------------

  /** Replacing chunk `j` by `c`, which is chunk `j` with `item` inserted at local offset `k`. */
  lemma GrowChunk<T>(l: List<T>, j: int, k: int, item: T, c: Chunk<T>)
    requires Valid(l) && 0 <= j < |l.chunks| && 0 <= k <= l.chunks[j].fill
    requires FixedSizeList.Valid(c) && FixedSizeList.Capacity(c) == l.chunkSize
    requires FixedSizeList.Contents(c) == Seqs.Insert(FixedSizeList.Contents(l.chunks[j]), k, item)
    ensures Offset(l.chunks, j) + k <= |Elements(l)|
    ensures Valid(List(l.chunkSize, l.chunks[j := c]))
    ensures Elements(List(l.chunkSize, l.chunks[j := c])) == Seqs.Insert(Elements(l), Offset(l.chunks, j) + k, item)
    ensures NoEmptyChunk(l.chunks) ==> NoEmptyChunk(l.chunks[j := c])
  {
    var cs := l.chunks;
    var b, m, a := Concat(cs[..j]), FixedSizeList.Contents(cs[j]), Concat(cs[j + 1..]);
    ReplaceChunk(l, j, c);
    assert Elements(l) == b + m + a by {
      ConcatSplit(cs, j);
    }
    Seqs.InsertMiddle(b, m, a, k, item);
  }

  /** Replacing chunk `j` by `c`, which is chunk `j` without its element at local offset `k`. */
  lemma ShrinkChunk<T>(l: List<T>, j: int, k: int, c: Chunk<T>)
    requires Valid(l) && 0 <= j < |l.chunks| && 0 <= k < l.chunks[j].fill
    requires FixedSizeList.Valid(c) && FixedSizeList.Capacity(c) == l.chunkSize
    requires FixedSizeList.Contents(c) == Seqs.Delete(FixedSizeList.Contents(l.chunks[j]), k)
    ensures Offset(l.chunks, j) + k < |Elements(l)|
    ensures Elements(l)[Offset(l.chunks, j) + k] == FixedSizeList.Contents(l.chunks[j])[k]
    ensures Valid(List(l.chunkSize, l.chunks[j := c]))
    ensures Elements(List(l.chunkSize, l.chunks[j := c])) == Seqs.Delete(Elements(l), Offset(l.chunks, j) + k)
    ensures NoEmptyChunk(l.chunks) && c.fill > 0 ==> NoEmptyChunk(l.chunks[j := c])
  {
    var cs := l.chunks;
    var b, m, a := Concat(cs[..j]), FixedSizeList.Contents(cs[j]), Concat(cs[j + 1..]);
    ReplaceChunk(l, j, c);
    assert Elements(l) == b + m + a by {
      ConcatSplit(cs, j);
    }
    Seqs.DeleteMiddle(b, m, a, k);
  }

  /** Replacing chunk `j` by `c`, which is chunk `j` with local offset `k` overwritten by `value`. */
  lemma UpdateChunk<T>(l: List<T>, j: int, k: int, value: T, c: Chunk<T>)
    requires Valid(l) && 0 <= j < |l.chunks| && 0 <= k < l.chunks[j].fill
    requires FixedSizeList.Valid(c) && FixedSizeList.Capacity(c) == l.chunkSize
    requires FixedSizeList.Contents(c) == FixedSizeList.Contents(l.chunks[j])[k := value]
    ensures Offset(l.chunks, j) + k < |Elements(l)|
    ensures Valid(List(l.chunkSize, l.chunks[j := c]))
    ensures Elements(List(l.chunkSize, l.chunks[j := c])) == Elements(l)[Offset(l.chunks, j) + k := value]
  {
    var cs := l.chunks;
    var b, m, a := Concat(cs[..j]), FixedSizeList.Contents(cs[j]), Concat(cs[j + 1..]);
    ReplaceChunk(l, j, c);
    assert Elements(l) == b + m + a by {
      ConcatSplit(cs, j);
    }
    Seqs.UpdateMiddle(b, m, a, k, value);
  }

  /** Deleting chunk `j`, which holds a single element. */
  lemma DropChunk<T>(l: List<T>, j: int)
    requires Valid(l) && 0 <= j < |l.chunks| && l.chunks[j].fill == 1
    ensures Offset(l.chunks, j) < |Elements(l)|
    ensures Elements(l)[Offset(l.chunks, j)] == FixedSizeList.Contents(l.chunks[j])[0]
    ensures Valid(List(l.chunkSize, l.chunks[..j] + l.chunks[j + 1..]))
    ensures Elements(List(l.chunkSize, l.chunks[..j] + l.chunks[j + 1..])) == Seqs.Delete(Elements(l), Offset(l.chunks, j))
    ensures NoEmptyChunk(l.chunks) ==> NoEmptyChunk(l.chunks[..j] + l.chunks[j + 1..])
  {
    var cs := l.chunks;
    var b, m, a := Concat(cs[..j]), FixedSizeList.Contents(cs[j]), Concat(cs[j + 1..]);
    DeleteChunk(l, j);
    assert Elements(l) == b + m + a by {
      ConcatSplit(cs, j);
    }
    assert Seqs.Delete(b + m + a, |b|) == b + a by {
      Seqs.DeleteMiddle(b, m, a, 0);
      assert Seqs.Delete(m, 0) == [];
      Seqs.AppendEmpty(b, a);
    }
  }

  /** Inserting at chunk position `j` a chunk `c` that holds just `item`. */
  lemma SpliceChunk<T>(l: List<T>, j: int, c: Chunk<T>, item: T)
    requires Valid(l) && 0 <= j <= |l.chunks|
    requires FixedSizeList.Valid(c) && FixedSizeList.Capacity(c) == l.chunkSize
    requires FixedSizeList.Contents(c) == [item]
    ensures Offset(l.chunks, j) <= |Elements(l)|
    ensures Valid(List(l.chunkSize, l.chunks[..j] + [c] + l.chunks[j..]))
    ensures Elements(List(l.chunkSize, l.chunks[..j] + [c] + l.chunks[j..])) == Seqs.Insert(Elements(l), Offset(l.chunks, j), item)
    ensures NoEmptyChunk(l.chunks) ==> NoEmptyChunk(l.chunks[..j] + [c] + l.chunks[j..])
  {
    var cs := l.chunks;
    var b, a := Concat(cs[..j]), Concat(cs[j..]);
    InsertChunk(l, j, c);
    assert Elements(l) == b + a by {
      ConcatPrefix(cs, j);
    }
    assert Seqs.Insert(b + a, |b|, item) == b + [item] + a by {
      Seqs.InsertMiddle(b, [], a, 0, item);
      Seqs.AppendEmpty(b, a);
    }
  }

  /** Inserting at chunk position `j` an empty chunk `c` leaves the logical list alone. */
  lemma SpliceEmptyChunk<T>(l: List<T>, j: int, c: Chunk<T>)
    requires Valid(l) && 0 <= j <= |l.chunks|
    requires FixedSizeList.Valid(c) && FixedSizeList.Capacity(c) == l.chunkSize
    requires FixedSizeList.Contents(c) == []
    ensures Valid(List(l.chunkSize, l.chunks[..j] + [c] + l.chunks[j..]))
    ensures Elements(List(l.chunkSize, l.chunks[..j] + [c] + l.chunks[j..])) == Elements(l)
  {
    InsertChunk(l, j, c);
    ConcatPrefix(l.chunks, j);
  }

  // ---------------------------------------------------------------------
  // The chunk scan
  // ---------------------------------------------------------------------

  /** Where the scan stopped: the chunk's position and the global index of its first element. */
  datatype Position = Position(chunk: nat, start: nat)

  /**
   Chunk `j` holds global position `index`: `start <= index < end`, or
   `start <= index <= end` for an insertion, which may land on the boundary.
   */
  predicate Covers<T>(cs: seq<Chunk<T>>, j: int, index: int, inclusive: bool)
    requires AllValid(cs) && 0 <= j < |cs|
  {
    var start := Offset(cs, j);
    var end := start + cs[j].fill;
    start <= index && (index < end || (inclusive && index == end))
  }

  /**
   The `for (chunk : chunks)` scan from chunk `ci` on, with `start` its
   accumulated first index: the first chunk that covers `index`, or nothing.
   Over all chunks the exclusive ranges cover exactly `[0, size)` and the
   inclusive ranges exactly `[0, size]`, except that no range exists at all
   when there are no chunks.
   */
  function Locate<T>(cs: seq<Chunk<T>>, index: int, inclusive: bool, ci: nat, start: int): (r: Option<Position>)
    requires AllValid(cs) && ci <= |cs| && start == Offset(cs, ci)
    ensures r.Some? ==>
              && ci <= r.value.chunk < |cs|
              && r.value.start == Offset(cs, r.value.chunk)
              && Covers(cs, r.value.chunk, index, inclusive)
    ensures r.Some? ==> forall j :: ci <= j < r.value.chunk ==> !Covers(cs, j, index, inclusive)
    ensures !inclusive ==> (r.None? <==> !(start <= index < |Concat(cs)|))
    ensures inclusive ==> (r.None? <==> (ci == |cs| || !(start <= index <= |Concat(cs)|)))
    decreases |cs| - ci
  {
    ConcatPrefix(cs, ci);
    if ci == |cs| then
      assert cs[..ci] == cs;
      None
    else
      var end := start + cs[ci].fill;
      OffsetNext(cs, ci);
      ConcatPrefix(cs, ci + 1);
      if start <= index && (index < end || (inclusive && index == end)) then
        Some(Position(ci, start))
      else
        Locate(cs, index, inclusive, ci + 1, end)
  }

  /** The chunk found for an exclusive scan holds the element at `index`, at local offset `index - start`. */
  lemma LocatedElement<T>(cs: seq<Chunk<T>>, p: Position, index: int)
    requires AllValid(cs) && p.chunk < |cs| && p.start == Offset(cs, p.chunk)
    requires p.start <= index < p.start + cs[p.chunk].fill
    ensures 0 <= index < |Concat(cs)|
    ensures Concat(cs)[index] == FixedSizeList.Contents(cs[p.chunk])[index - p.start]
  {
    ConcatSplit(cs, p.chunk);
  }

  // ---------------------------------------------------------------------
  // Operations
  // ---------------------------------------------------------------------

  /** `makeChunk`: an empty FixedSizeList of `chunkSize` slots. */
  function MakeChunk<T>(l: List<T>): (c: Chunk<T>)
    requires l.chunkSize > 0
    ensures FixedSizeList.Valid(c) && FixedSizeList.Contents(c) == []
    ensures FixedSizeList.Capacity(c) == l.chunkSize
  {
    FixedSizeList.New(l.chunkSize)
  }

  /** `new ChunkyArrayList(chunkSize)`: no chunks yet. */
  function New<T>(chunkSize: int): (l: List<T>)
    requires chunkSize > 0
    ensures l.chunkSize == chunkSize
    ensures Valid(l) && NoEmptyChunk(l.chunks)
    ensures Elements(l) == []
  {
    List(chunkSize, [])
  }

  /** The size loop `total += chunk.size()`, from chunk `ci` on. */
  function SizeFrom<T>(cs: seq<Chunk<T>>, ci: nat, total: int): (n: int)
    requires AllValid(cs) && ci <= |cs|
    ensures n == total + |Concat(cs[ci..])|
    decreases |cs| - ci
  {
    if ci == |cs| then total
    else
      assert cs[ci..][1..] == cs[ci + 1..];
      SizeFrom(cs, ci + 1, total + FixedSizeList.Size(cs[ci]))
  }

  /** `size()`: the sum of the chunk sizes, the length of the logical list. */
  function Size<T>(l: List<T>): (n: int)
    requires Valid(l)
    ensures n == |Elements(l)|
  {
    assert l.chunks[0..] == l.chunks;
    SizeFrom(l.chunks, 0, 0)
  }

  /**
   `isEmpty()` asks whether there are no chunks. That means no elements as long
   as no empty chunk has been left in the sequence.
   */
  function IsEmpty<T>(l: List<T>): (r: bool)
    requires Valid(l)
    ensures r ==> Elements(l) == []
    ensures NoEmptyChunk(l.chunks) ==> (r <==> Elements(l) == [])
  {
    assert |l.chunks| > 0 && NoEmptyChunk(l.chunks) ==> |Elements(l)| > 0 by {
      if |l.chunks| > 0 && NoEmptyChunk(l.chunks) {
        NonEmptyConcat(l.chunks);
      }
    }
    |l.chunks| == 0
  }

  /** `getIndex`: EmptyListError without chunks, else the scan, else BadIndexError. */
  function GetIndex<T>(l: List<T>, index: int): (r: Result<T>)
    requires Valid(l)
    ensures |l.chunks| == 0 ==> r == Err(EmptyList)
    ensures |l.chunks| > 0 && !(0 <= index < |Elements(l)|) ==> r == Err(BadIndex(index))
    ensures 0 <= index < |Elements(l)| ==> r == Ok(Elements(l)[index])
  {
    if |l.chunks| == 0 then Err(EmptyList)
    else match Locate(l.chunks, index, false, 0, 0)
      case None => Err(BadIndex(index))
      case Some(p) =>
        LocatedElement(l.chunks, p, index);
        FixedSizeList.GetIndex(l.chunks[p.chunk], index - p.start)
  }

  /** `getFront`: `getIndex(0)`. */
  function GetFront<T>(l: List<T>): (r: Result<T>)
    requires Valid(l)
    ensures |l.chunks| == 0 ==> r == Err(EmptyList)
    ensures |l.chunks| > 0 && Elements(l) == [] ==> r == Err(BadIndex(0))
    ensures Elements(l) != [] ==> r == Ok(Elements(l)[0])
  {
    GetIndex(l, 0)
  }

  /** `getBack`: `getIndex(size()-1)`. */
  function GetBack<T>(l: List<T>): (r: Result<T>)
    requires Valid(l)
    ensures |l.chunks| == 0 ==> r == Err(EmptyList)
    ensures |l.chunks| > 0 && Elements(l) == [] ==> r == Err(BadIndex(-1))
    ensures Elements(l) != [] ==> r == Ok(Elements(l)[|Elements(l)| - 1])
  {
    GetIndex(l, Size(l) - 1)
  }

  /** `setIndex`: the same scan, then `setIndex` on the chunk found; the chunk structure stays. */
  function SetIndex<T>(l: List<T>, index: int, value: T): (r: Result<List<T>>)
    requires Valid(l)
    ensures |l.chunks| == 0 ==> r == Err(EmptyList)
    ensures |l.chunks| > 0 && !(0 <= index < |Elements(l)|) ==> r == Err(BadIndex(index))
    ensures 0 <= index < |Elements(l)| ==>
              && r.Ok? && Valid(r.value)
              && Elements(r.value) == Elements(l)[index := value]
              && r.value.chunkSize == l.chunkSize
              && |r.value.chunks| == |l.chunks|
              && forall j :: 0 <= j < |l.chunks| ==> r.value.chunks[j].fill == l.chunks[j].fill
  {
    if |l.chunks| == 0 then Err(EmptyList)
    else match Locate(l.chunks, index, false, 0, 0)
      case None => Err(BadIndex(index))
      case Some(p) =>
        var c := FixedSizeList.SetIndex(l.chunks[p.chunk], index - p.start, value).value;
        UpdateChunk(l, p.chunk, index - p.start, value, c);
        Ok(List(l.chunkSize, l.chunks[p.chunk := c]))
  }

  /**
   The removal step of `removeIndex` once the scan has found chunk `p`: remove
   at the local offset, and delete the chunk from the sequence if it is left empty.
   */
  function RemoveAtPosition<T>(l: List<T>, p: Position, index: int): (r: (T, List<T>))
    requires Valid(l) && p.chunk < |l.chunks| && p.start == Offset(l.chunks, p.chunk)
    requires p.start <= index < p.start + l.chunks[p.chunk].fill
    ensures 0 <= index < |Elements(l)|
    ensures Valid(r.1)
    ensures r.0 == Elements(l)[index]
    ensures Elements(r.1) == Seqs.Delete(Elements(l), index)
    ensures r.1.chunkSize == l.chunkSize
    ensures |r.1.chunks| == if l.chunks[p.chunk].fill == 1 then |l.chunks| - 1 else |l.chunks|
    ensures NoEmptyChunk(l.chunks) ==> NoEmptyChunk(r.1.chunks)
  {
    var cs, j, k := l.chunks, p.chunk, index - p.start;
    var removed := FixedSizeList.RemoveIndex(cs[j], k).value;
    if FixedSizeList.IsEmpty(removed.1) then
      DropChunk(l, j);
      (removed.0, List(l.chunkSize, cs[..j] + cs[j + 1..]))
    else
      ShrinkChunk(l, j, k, removed.1);
      (removed.0, List(l.chunkSize, cs[j := removed.1]))
  }

  /**
   `removeIndex`: the same scan, then `removeIndex` on the chunk found; a chunk
   left empty is deleted from the chunk sequence.
   */
  function RemoveIndex<T>(l: List<T>, index: int): (r: Result<(T, List<T>)>)
    requires Valid(l)
    ensures |l.chunks| == 0 ==> r == Err(EmptyList)
    ensures |l.chunks| > 0 && !(0 <= index < |Elements(l)|) ==> r == Err(BadIndex(index))
    ensures 0 <= index < |Elements(l)| ==>
              && r.Ok? && Valid(r.value.1)
              && r.value.0 == Elements(l)[index]
              && Elements(r.value.1) == Seqs.Delete(Elements(l), index)
              && r.value.1.chunkSize == l.chunkSize
              && |l.chunks| - 1 <= |r.value.1.chunks| <= |l.chunks|
              && (NoEmptyChunk(l.chunks) ==> NoEmptyChunk(r.value.1.chunks))
  {
    if |l.chunks| == 0 then Err(EmptyList)
    else match Locate(l.chunks, index, false, 0, 0)
      case None => Err(BadIndex(index))
      case Some(p) => Ok(RemoveAtPosition(l, p, index))
  }

  /**
   `T v = getIndex(index); removeIndex(index); return v;`, the body shared by
   `removeFront` and `removeBack`. Both calls fail in the same way on the same
   list, so the first one's error is the one thrown.
   */
  function GetThenRemove<T>(l: List<T>, index: int): (r: Result<(T, List<T>)>)
    requires Valid(l)
    ensures |l.chunks| == 0 ==> r == Err(EmptyList)
    ensures |l.chunks| > 0 && !(0 <= index < |Elements(l)|) ==> r == Err(BadIndex(index))
    ensures 0 <= index < |Elements(l)| ==>
              && r.Ok? && Valid(r.value.1)
              && r.value.0 == Elements(l)[index]
              && Elements(r.value.1) == Seqs.Delete(Elements(l), index)
              && r.value.1.chunkSize == l.chunkSize
              && (NoEmptyChunk(l.chunks) ==> NoEmptyChunk(r.value.1.chunks))
  {
    match GetIndex(l, index)
    case Err(e) => Err(e)
    case Ok(v) =>
      var removed := RemoveIndex(l, index).value;
      Ok((v, removed.1))
  }

  /** `removeFront`: `getIndex(0)`, then `removeIndex(0)`. */
  function RemoveFront<T>(l: List<T>): (r: Result<(T, List<T>)>)
    requires Valid(l)
    ensures |l.chunks| == 0 ==> r == Err(EmptyList)
    ensures |l.chunks| > 0 && Elements(l) == [] ==> r == Err(BadIndex(0))
    ensures Elements(l) != [] ==>
              && r.Ok? && Valid(r.value.1)
              && [r.value.0] + Elements(r.value.1) == Elements(l)
              && r.value.1.chunkSize == l.chunkSize
              && (NoEmptyChunk(l.chunks) ==> NoEmptyChunk(r.value.1.chunks))
  {
    var r := GetThenRemove(l, 0);
    assert Elements(l) != [] ==> [Elements(l)[0]] + Seqs.Delete(Elements(l), 0) == Elements(l);
    r
  }

  /** `removeBack`: `getIndex(size()-1)`, then `removeIndex(size()-1)`. */
  function RemoveBack<T>(l: List<T>): (r: Result<(T, List<T>)>)
    requires Valid(l)
    ensures |l.chunks| == 0 ==> r == Err(EmptyList)
    ensures |l.chunks| > 0 && Elements(l) == [] ==> r == Err(BadIndex(-1))
    ensures Elements(l) != [] ==>
              && r.Ok? && Valid(r.value.1)
              && Elements(r.value.1) + [r.value.0] == Elements(l)
              && r.value.1.chunkSize == l.chunkSize
              && (NoEmptyChunk(l.chunks) ==> NoEmptyChunk(r.value.1.chunks))
  {
    var last := Size(l) - 1;
    var r := GetThenRemove(l, last);
    assert Elements(l) != [] ==> Seqs.Delete(Elements(l), last) + [Elements(l)[last]] == Elements(l);
    r
  }

  /** Every chunk but the last is full: the shape that appending alone produces. */
  predicate Packed<T>(l: List<T>)
  {
    forall j :: 0 <= j < |l.chunks| - 1 ==> l.chunks[j].fill == l.chunkSize
  }

  /** `chunks.addBack(makeChunk())` then `chunks.getBack().addBack(item)`: a new last chunk holding just `item`. */
  function AppendChunk<T>(l: List<T>, item: T): (r: List<T>)
    requires Valid(l)
    ensures Valid(r)
    ensures Elements(r) == Elements(l) + [item]
    ensures r.chunkSize == l.chunkSize
    ensures NoEmptyChunk(l.chunks) ==> NoEmptyChunk(r.chunks)
    ensures |r.chunks| == |l.chunks| + 1
    ensures forall k :: 0 <= k < |l.chunks| ==> r.chunks[k] == l.chunks[k]
    ensures FixedSizeList.Contents(r.chunks[|l.chunks|]) == [item]
  {
    var cs := l.chunks;
    var c := FixedSizeList.AddBack(MakeChunk(l), item).value;
    assert Offset(cs, |cs|) == |Elements(l)| by {
      assert cs[..|cs|] == cs;
    }
    SpliceChunk(l, |cs|, c, item);
    assert cs[..|cs|] + [c] + cs[|cs|..] == cs + [c];
    assert Seqs.Insert(Elements(l), |Elements(l)|, item) == Elements(l) + [item];
    List(l.chunkSize, cs + [c])
  }

  /** `chunks.getBack().addBack(item)` on a last chunk with space. */
  function AppendInLastChunk<T>(l: List<T>, item: T): (r: List<T>)
    requires Valid(l) && |l.chunks| > 0 && !FixedSizeList.IsFull(l.chunks[|l.chunks| - 1])
    ensures Valid(r)
    ensures Elements(r) == Elements(l) + [item]
    ensures r.chunkSize == l.chunkSize
    ensures NoEmptyChunk(l.chunks) ==> NoEmptyChunk(r.chunks)
    ensures |r.chunks| == |l.chunks|
    ensures forall k :: 0 <= k < |l.chunks| - 1 ==> r.chunks[k] == l.chunks[k]
    ensures FixedSizeList.Contents(r.chunks[|l.chunks| - 1])
            == FixedSizeList.Contents(l.chunks[|l.chunks| - 1]) + [item]
  {
    var cs := l.chunks;
    var j := |cs| - 1;
    var c := FixedSizeList.AddBack(cs[j], item).value;
    assert Offset(cs, j) + cs[j].fill == |Elements(l)| by {
      OffsetNext(cs, j);
      assert cs[..j + 1] == cs;
    }
    GrowChunk(l, j, cs[j].fill, item, c);
    assert Seqs.Insert(Elements(l), |Elements(l)|, item) == Elements(l) + [item];
    List(l.chunkSize, cs[j := c])
  }

  /**
   `addBack`: a fresh chunk holding just `item` is appended when there are no
   chunks or the last chunk is full; otherwise `item` goes at the back of the
   last chunk. No chunk ever exceeds `chunkSize`.
   */
  function AddBack<T>(l: List<T>, item: T): (r: List<T>)
    requires Valid(l)
    ensures Valid(r)
    ensures Elements(r) == Elements(l) + [item]
    ensures r.chunkSize == l.chunkSize
    ensures NoEmptyChunk(l.chunks) ==> NoEmptyChunk(r.chunks)
    ensures Packed(l) ==> Packed(r)
    ensures var n := |l.chunks|;
            var grows := n == 0 || FixedSizeList.IsFull(l.chunks[n - 1]);
            && |r.chunks| == n + (if grows then 1 else 0)
            && r.chunks[|r.chunks| - 1].fill == (if grows then 1 else l.chunks[n - 1].fill + 1)
    ensures forall k :: 0 <= k < |l.chunks| - 1 ==> r.chunks[k] == l.chunks[k]
    ensures |l.chunks| > 0 && FixedSizeList.IsFull(l.chunks[|l.chunks| - 1]) ==>
              r.chunks[|l.chunks| - 1] == l.chunks[|l.chunks| - 1]
  {
    var cs := l.chunks;
    if |cs| == 0 || FixedSizeList.IsFull(cs[|cs| - 1]) then
      AppendChunk(l, item)
    else
      AppendInLastChunk(l, item)
  }

  /**
   `addIndex` into a chunk with space: `addIndex` on that chunk at the local
   offset `index - start`.
   */
  function AddInChunk<T>(l: List<T>, p: Position, index: int, item: T): (r: List<T>)
    requires Valid(l) && p.chunk < |l.chunks| && p.start == Offset(l.chunks, p.chunk)
    requires !FixedSizeList.IsFull(l.chunks[p.chunk])
    requires p.start <= index <= p.start + l.chunks[p.chunk].fill
    ensures Valid(r)
    ensures 0 <= index <= |Elements(l)|
    ensures Elements(r) == Seqs.Insert(Elements(l), index, item)
    ensures r.chunkSize == l.chunkSize
    ensures NoEmptyChunk(l.chunks) ==> NoEmptyChunk(r.chunks)
    ensures |r.chunks| == |l.chunks|
    ensures forall k :: 0 <= k < |l.chunks| && k != p.chunk ==> r.chunks[k] == l.chunks[k]
    ensures FixedSizeList.Contents(r.chunks[p.chunk])
            == Seqs.Insert(FixedSizeList.Contents(l.chunks[p.chunk]), index - p.start, item)
  {
    var cs, j, k := l.chunks, p.chunk, index - p.start;
    var c := FixedSizeList.AddIndex(cs[j], k, item).value;
    GrowChunk(l, j, k, item, c);
    List(l.chunkSize, cs[j := c])
  }

  /**
   The boundary case of `addIndex` where the scan found a full chunk and the
   index is its end: `item` goes to the front of the next chunk when that
   exists and has space, and otherwise into a fresh chunk inserted right after
   the full one.
   */
  function AddAfterFull<T>(l: List<T>, p: Position, index: int, item: T): (r: List<T>)
    requires Valid(l) && p.chunk < |l.chunks| && p.start == Offset(l.chunks, p.chunk)
    requires FixedSizeList.IsFull(l.chunks[p.chunk])
    requires index == p.start + l.chunks[p.chunk].fill
    ensures Valid(r)
    ensures 0 <= index <= |Elements(l)|
    ensures Elements(r) == Seqs.Insert(Elements(l), index, item)
    ensures r.chunkSize == l.chunkSize
    ensures NoEmptyChunk(l.chunks) ==> NoEmptyChunk(r.chunks)
    ensures var j, cs := p.chunk, l.chunks;
            var grows := j == |cs| - 1 || FixedSizeList.IsFull(cs[j + 1]);
            && |r.chunks| == |cs| + (if grows then 1 else 0)
            && (forall k :: 0 <= k <= j ==> r.chunks[k] == cs[k])
            && (grows ==> && (forall k :: j + 1 < k < |r.chunks| ==> r.chunks[k] == cs[k - 1])
                          && FixedSizeList.Contents(r.chunks[j + 1]) == [item])
            && (!grows ==> && (forall k :: j + 1 < k < |r.chunks| ==> r.chunks[k] == cs[k])
                           && FixedSizeList.Contents(r.chunks[j + 1]) == [item] + FixedSizeList.Contents(cs[j + 1]))
  {
    var j := p.chunk;
    OffsetNext(l.chunks, j);
    ConcatPrefix(l.chunks, j + 1);
    if j == |l.chunks| - 1 || FixedSizeList.IsFull(l.chunks[j + 1]) then
      AddNewChunkAfter(l, j, item)
    else
      AddFrontOfNext(l, j, item)
  }

  /** A fresh chunk holding just `item`, inserted after chunk `j`. */
  function AddNewChunkAfter<T>(l: List<T>, j: int, item: T): (r: List<T>)
    requires Valid(l) && 0 <= j < |l.chunks|
    ensures Valid(r)
    ensures Elements(r) == Seqs.Insert(Elements(l), Offset(l.chunks, j + 1), item)
    ensures r.chunkSize == l.chunkSize
    ensures NoEmptyChunk(l.chunks) ==> NoEmptyChunk(r.chunks)
    ensures |r.chunks| == |l.chunks| + 1
    ensures forall k :: 0 <= k <= j ==> r.chunks[k] == l.chunks[k]
    ensures forall k :: j + 1 < k < |r.chunks| ==> r.chunks[k] == l.chunks[k - 1]
    ensures FixedSizeList.Contents(r.chunks[j + 1]) == [item]
  {
    var c := FixedSizeList.AddFront(MakeChunk(l), item).value;
    SpliceChunk(l, j + 1, c, item);
    List(l.chunkSize, l.chunks[..j + 1] + [c] + l.chunks[j + 1..])
  }

  /** `item` placed at the front of chunk `j + 1`, which has space. */
  function AddFrontOfNext<T>(l: List<T>, j: int, item: T): (r: List<T>)
    requires Valid(l) && 0 <= j < |l.chunks| - 1
    requires !FixedSizeList.IsFull(l.chunks[j + 1])
    ensures Valid(r)
    ensures Elements(r) == Seqs.Insert(Elements(l), Offset(l.chunks, j + 1), item)
    ensures r.chunkSize == l.chunkSize
    ensures NoEmptyChunk(l.chunks) ==> NoEmptyChunk(r.chunks)
    ensures |r.chunks| == |l.chunks|
    ensures forall k :: 0 <= k < |l.chunks| && k != j + 1 ==> r.chunks[k] == l.chunks[k]
    ensures FixedSizeList.Contents(r.chunks[j + 1]) == [item] + FixedSizeList.Contents(l.chunks[j + 1])
  {
    var c := FixedSizeList.AddFront(l.chunks[j + 1], item).value;
    assert FixedSizeList.Contents(c) == Seqs.Insert(FixedSizeList.Contents(l.chunks[j + 1]), 0, item);
    GrowChunk(l, j + 1, 0, item, c);
    List(l.chunkSize, l.chunks[j + 1 := c])
  }

  /**
   The interior case of `addIndex` where the scan found a full chunk and the
   index is before its end. The source places nothing here: when the full chunk
   is the last one or its successor is full, an empty chunk is inserted after
   it, and `item` is dropped either way.
   */
  function AddInsideFull<T>(l: List<T>, p: Position): (r: List<T>)
    requires Valid(l) && p.chunk < |l.chunks|
    ensures Valid(r)
    ensures Elements(r) == Elements(l)
    ensures r.chunkSize == l.chunkSize
  {
    var cs, j := l.chunks, p.chunk;
    if j == |cs| - 1 || FixedSizeList.IsFull(cs[j + 1]) then
      var c := MakeChunk(l);
      SpliceEmptyChunk(l, j + 1, c);
      List(l.chunkSize, cs[..j + 1] + [c] + cs[j + 1..])
    else
      l
  }

  /** Whether `addIndex(index, ·)` would take the interior-of-a-full-chunk case. */
  predicate DropsItem<T>(l: List<T>, index: int)
    requires Valid(l)
  {
    match Locate(l.chunks, index, true, 0, 0)
    case None => false
    case Some(p) =>
      FixedSizeList.IsFull(l.chunks[p.chunk]) && index < p.start + l.chunks[p.chunk].fill
  }

  /**
   `addIndex`: the scan with inclusive ranges, then: a chunk with space takes
   `item` at the local offset; a full chunk is handled by `AddAfterFull` at its
   end and by `AddInsideFull` before it. BadIndexError when no range matches,
   which includes every index of a list without chunks.
   */
  function AddIndex<T>(l: List<T>, index: int, item: T): (r: Result<List<T>>)
    requires Valid(l)
    ensures r.Err? <==> (|l.chunks| == 0 || !(0 <= index <= |Elements(l)|))
    ensures r.Err? ==> r.error == BadIndex(index)
    ensures r.Ok? ==> Valid(r.value) && r.value.chunkSize == l.chunkSize
    ensures r.Ok? && !DropsItem(l, index) ==>
              && Elements(r.value) == Seqs.Insert(Elements(l), index, item)
              && (NoEmptyChunk(l.chunks) ==> NoEmptyChunk(r.value.chunks))
    ensures r.Ok? && DropsItem(l, index) ==> Elements(r.value) == Elements(l)
  {
    match Locate(l.chunks, index, true, 0, 0)
    case None => Err(BadIndex(index))
    case Some(p) =>
      var c := l.chunks[p.chunk];
      if FixedSizeList.IsFull(c) then
        if index == p.start + c.fill then Ok(AddAfterFull(l, p, index, item))
        else Ok(AddInsideFull(l, p))
      else
        Ok(AddInChunk(l, p, index, item))
  }

  /**
   `addFront`: `addIndex(0, item)`. It fails on a list without chunks, and it
   drops `item` exactly when the first chunk is full.
   */
  function AddFront<T>(l: List<T>, item: T): (r: Result<List<T>>)
    requires Valid(l)
    ensures |l.chunks| == 0 <==> r == Err(BadIndex(0))
    ensures |l.chunks| > 0 ==> r.Ok?
    ensures |l.chunks| > 0 ==> (DropsItem(l, 0) <==> FixedSizeList.IsFull(l.chunks[0]))
    ensures r.Ok? ==> Valid(r.value)
    ensures r.Ok? && !DropsItem(l, 0) ==> Elements(r.value) == [item] + Elements(l)
    ensures r.Ok? && DropsItem(l, 0) ==> Elements(r.value) == Elements(l)
  {
    assert l.chunks[..0] == [];
    AddIndex(l, 0, item)
  }

  // ---------------------------------------------------------------------
  // Properties relating several operations
  // ---------------------------------------------------------------------

  /**
   On a list with chunks, inserting at `size()` never drops the item and
   leaves the same logical list as `addBack`. Without chunks it fails instead
   (see `AddFront`), while `addBack` succeeds.
   */
  lemma AddIndexAtEndMatchesAddBack<T>(l: List<T>, item: T)
    requires Valid(l) && |l.chunks| > 0
    ensures !DropsItem(l, |Elements(l)|)
    ensures AddIndex(l, |Elements(l)|, item).Ok?
    ensures Elements(AddIndex(l, |Elements(l)|, item).value) == Elements(AddBack(l, item))
  {
    var n := |Elements(l)|;
    var p := Locate(l.chunks, n, true, 0, 0).value;
    OffsetNext(l.chunks, p.chunk);
    assert Offset(l.chunks, p.chunk + 1) <= n;
  }

  /** `addIndex(i, x)` that places its item, followed by `removeIndex(i)`, returns `x` and the original list. */
  lemma AddThenRemove<T>(l: List<T>, index: int, item: T)
    requires Valid(l) && |l.chunks| > 0
    requires 0 <= index <= |Elements(l)| && !DropsItem(l, index)
    ensures AddIndex(l, index, item).Ok?
    ensures var r := RemoveIndex(AddIndex(l, index, item).value, index);
            r.Ok? && r.value.0 == item && Elements(r.value.1) == Elements(l)
  {
    Seqs.DeleteInsert(Elements(l), index, item);
  }

  /** A chunk ends no later than any later chunk starts. */
  lemma {:induction false} OffsetMonotone<T>(cs: seq<Chunk<T>>, k: int, j: int)
    requires AllValid(cs) && 0 <= k < |cs| && 0 <= j <= |cs|
    ensures k < j ==> Offset(cs, k) + cs[k].fill <= Offset(cs, j)
    decreases j - k
  {
    OffsetNext(cs, k);
    if k + 1 < j {
      OffsetNext(cs, k + 1);
      OffsetMonotone(cs, k + 1, j);
    }
  }

  /** Whether chunk `j` is full and `i` lies inside it, after its start unless it is the first chunk. */
  predicate InsideFullChunk<T>(cs: seq<Chunk<T>>, j: int, i: int)
    requires AllValid(cs) && 0 <= j < |cs|
  {
    && FixedSizeList.IsFull(cs[j])
    && Offset(cs, j) <= i < Offset(cs, j) + cs[j].fill
    && (j == 0 || Offset(cs, j) < i)
  }

  /** A dropped insertion lies inside the full chunk the scan found. */
  lemma DroppedInsideFullChunk<T>(l: List<T>, i: int)
    requires Valid(l) && NoEmptyChunk(l.chunks) && DropsItem(l, i)
    ensures var p := Locate(l.chunks, i, true, 0, 0);
            p.Some? && InsideFullChunk(l.chunks, p.value.chunk, i)
  {
    var cs := l.chunks;
    assert cs[..0] == [];
    var j := Locate(cs, i, true, 0, 0).value.chunk;
    if j > 0 {
      OffsetNext(cs, j - 1);
      assert !Covers(cs, j - 1, i, true);
    }
  }

  /** An index inside a full chunk, after its start unless it is the first, is dropped. */
  lemma InsideFullChunkDropped<T>(l: List<T>, j: int, i: int)
    requires Valid(l) && NoEmptyChunk(l.chunks) && 0 <= j < |l.chunks|
    requires InsideFullChunk(l.chunks, j, i)
    ensures DropsItem(l, i)
  {
    var cs := l.chunks;
    assert cs[..0] == [];
    OffsetNext(cs, j);
    assert Covers(cs, j, i, true);
    var p := Locate(cs, i, true, 0, 0).value;
    OffsetMonotone(cs, p.chunk, j);
    assert p.chunk == j;
  }

  /**
   The indices whose insertion is dropped, without reference to the scan: with
   no empty chunk, `addIndex(i, ·)` loses its item exactly when `i` lies inside
   a full chunk and, unless that chunk is the first, strictly after its start
   (an index on a chunk boundary is taken by the end of the previous chunk).
   */
  lemma DropsItemExactly<T>(l: List<T>, i: int)
    requires Valid(l) && NoEmptyChunk(l.chunks)
    ensures DropsItem(l, i) <==> exists j :: 0 <= j < |l.chunks| && InsideFullChunk(l.chunks, j, i)
  {
    if DropsItem(l, i) {
      DroppedInsideFullChunk(l, i);
    }
    forall j | 0 <= j < |l.chunks| && InsideFullChunk(l.chunks, j, i)
      ensures DropsItem(l, i)
    {
      InsideFullChunkDropped(l, j, i);
    }
  }

  /** In a packed list the first `m` chunks, all full, hold `m * chunkSize` elements. */
  lemma {:induction false} PackedOffset<T>(l: List<T>, m: int)
    requires Valid(l) && Packed(l) && 0 <= m < |l.chunks|
    ensures Offset(l.chunks, m) == m * l.chunkSize
    decreases m
  {
    if m > 0 {
      PackedOffset(l, m - 1);
      OffsetNext(l.chunks, m - 1);
    } else {
      assert l.chunks[..0] == [];
    }
  }

  /**
   A packed list without empty chunks uses the fewest chunks possible:
   `(chunks - 1) * chunkSize < size <= chunks * chunkSize`, with the last chunk
   holding the remainder.
   */
  lemma PackedLayout<T>(l: List<T>)
    requires Valid(l) && Packed(l) && NoEmptyChunk(l.chunks) && |l.chunks| > 0
    ensures var last := l.chunks[|l.chunks| - 1];
            |Elements(l)| == (|l.chunks| - 1) * l.chunkSize + last.fill
    ensures (|l.chunks| - 1) * l.chunkSize < |Elements(l)| <= |l.chunks| * l.chunkSize
  {
    var cs, m := l.chunks, |l.chunks| - 1;
    PackedOffset(l, m);
    OffsetNext(cs, m);
    assert cs[..m + 1] == cs;
    assert |FixedSizeList.Contents(cs[m])| <= FixedSizeList.Capacity(cs[m]);
  }

  /** Two appends in a row, seen through the abstraction and the shape predicates. */
  lemma AppendTwo<T>(l: List<T>, x: T, y: T)
    requires Valid(l)
    ensures var r := AddBack(AddBack(l, x), y);
            && Valid(r) && r.chunkSize == l.chunkSize
            && Elements(r) == Elements(l) + [x, y]
            && (Packed(l) ==> Packed(r))
            && (NoEmptyChunk(l.chunks) ==> NoEmptyChunk(r.chunks))
  {
    assert Elements(l) + [x] + [y] == Elements(l) + [x, y];
  }

  /** The list that seven appends to an empty list of chunk size 3 build: packed, with no empty chunk. */
  lemma SevenAppendsShape<T>(a: T, b: T, c: T, d: T, e: T, f: T, g: T)
    ensures var l := AddBack(AddBack(AddBack(AddBack(AddBack(AddBack(AddBack(New(3), a), b), c), d), e), f), g);
            && Valid(l) && Packed(l) && NoEmptyChunk(l.chunks) && l.chunkSize == 3
            && Elements(l) == [a, b, c, d, e, f, g]
  {
    var l0: List<T> := New(3);
    AppendTwo(l0, a, b);
    var l2 := AddBack(AddBack(l0, a), b);
    AppendTwo(l2, c, d);
    var l4 := AddBack(AddBack(l2, c), d);
    AppendTwo(l4, e, f);
    var l6 := AddBack(AddBack(l4, e), f);
    assert Elements(l6) == [a, b, c, d, e, f];
  }

  /** Seven appends to an empty list of chunk size 3 give chunk sizes 3, 3, 1, and element 5 is the sixth item. */
  lemma AppendSevenIntoChunksOfThree<T>(a: T, b: T, c: T, d: T, e: T, f: T, g: T)
    ensures var l := AddBack(AddBack(AddBack(AddBack(AddBack(AddBack(AddBack(New(3), a), b), c), d), e), f), g);
            && Elements(l) == [a, b, c, d, e, f, g]
            && |l.chunks| == 3
            && l.chunks[0].fill == 3 && l.chunks[1].fill == 3 && l.chunks[2].fill == 1
            && GetIndex(l, 5) == Ok(f)
  {
    SevenAppendsShape(a, b, c, d, e, f, g);
    var l := AddBack(AddBack(AddBack(AddBack(AddBack(AddBack(AddBack(New(3), a), b), c), d), e), f), g);
    PackedLayout(l);
    var k := |l.chunks|;
    assert k == 3 by {
      assert (k - 1) * 3 < 7 <= k * 3;
    }
  }

  /**
   With chunk size 2 and chunks `[A,B][C,D]`, inserting at the shared boundary
   2 finds the full first chunk and its full successor, so a fresh chunk takes
   the item: the list becomes `[A,B,X,C,D]` in three chunks.
   */
  lemma InsertAtFullBoundary<T>(a: T, b: T, c: T, d: T, x: T)
    ensures var l := AddBack(AddBack(AddBack(AddBack(New(2), a), b), c), d);
            && |l.chunks| == 2
            && AddIndex(l, 2, x).Ok?
            && Elements(AddIndex(l, 2, x).value) == [a, b, x, c, d]
            && |AddIndex(l, 2, x).value.chunks| == 3
  {
    var l0: List<T> := New(2);
    AppendTwo(l0, a, b);
    var l2 := AddBack(AddBack(l0, a), b);
    AppendTwo(l2, c, d);
    var l := AddBack(AddBack(l2, c), d);
    assert Elements(l) == [a, b, c, d];
    PackedLayout(l);
    var k := |l.chunks|;
    assert k == 2 by {
      assert (k - 1) * 2 < 4 <= k * 2;
    }
    assert l.chunks[..0] == [];
    assert Locate(l.chunks, 2, true, 0, 0) == Some(Position(0, 0));
    assert Seqs.Insert([a, b, c, d], 2, x) == [a, b, x, c, d];
  }
}

=== FILE: common.dfy ===
/**
 Shared vocabulary of the four list implementations: the failures the list
 interface can signal, a result type carrying either a value or one of those
 failures, and an option type standing for a possibly-null array slot.
 */
module Common {

  /** A slot of a Java array: `None` is `null`. */
  datatype Option<+T> = None | Some(value: T)

  /** The errors the list interface throws. */
  datatype Error =
    | EmptyList            // EmptyListError: positional access on a list with no elements
    | BadIndex(index: int) // BadIndexError: the index lies outside the range the operation accepts
    | RanOutOfSpace        // RanOutOfSpaceError: insertion into a full fixed-size list

  /** The outcome of an operation that either returns a value or throws. */
  datatype Result<+R> = Ok(value: R) | Err(error: Error)

  /** The outcome of an operation that returns nothing or throws. */
  datatype Outcome = Pass | Fail(error: Error)
}

/**
 The abstract list every implementation is checked against: a plain sequence,
 with insertion and deletion at a position.
 */
module Seqs {

  /** `s` with `x` placed at position `i`; the elements from `i` on move one to the right. */
  function Insert<T>(s: seq<T>, i: int, x: T): seq<T>
    requires 0 <= i <= |s|
  {
    s[..i] + [x] + s[i..]
  }

  /** `s` without its element at position `i`. */
  function Delete<T>(s: seq<T>, i: int): seq<T>
    requires 0 <= i < |s|
  {
    s[..i] + s[i + 1..]
  }

  /** Deleting what was just inserted gives back the original sequence. */
  lemma DeleteInsert<T>(s: seq<T>, i: int, x: T)
    requires 0 <= i <= |s|
    ensures |Insert(s, i, x)| == |s| + 1
    ensures Insert(s, i, x)[i] == x
    ensures Delete(Insert(s, i, x), i) == s
  {
    var t := Insert(s, i, x);
    assert t[..i] == s[..i];
    assert t[i + 1..] == s[i..];
  }

  /** Concatenation is associative. */
  lemma AppendAssoc<T>(a: seq<T>, b: seq<T>, c: seq<T>)
    ensures a + (b + c) == a + b + c
  {
  }

  /** An empty middle part vanishes. */
  lemma AppendEmpty<T>(a: seq<T>, c: seq<T>)
    ensures a + [] + c == a + c
  {
  }

  /** Inserting into the middle part of `a + b + c` only touches `b`. */
  lemma InsertMiddle<T>(a: seq<T>, b: seq<T>, c: seq<T>, k: int, x: T)
    requires 0 <= k <= |b|
    ensures Insert(a + b + c, |a| + k, x) == a + Insert(b, k, x) + c
  {
    var s := a + b + c;
    assert s[..|a| + k] == a + b[..k];
    assert s[|a| + k..] == b[k..] + c;
  }

  /** Deleting from the middle part of `a + b + c` only touches `b`. */
  lemma DeleteMiddle<T>(a: seq<T>, b: seq<T>, c: seq<T>, k: int)
    requires 0 <= k < |b|
    ensures Delete(a + b + c, |a| + k) == a + Delete(b, k) + c
  {
    var s := a + b + c;
    assert s[..|a| + k] == a + b[..k];
    assert s[|a| + k + 1..] == b[k + 1..] + c;
  }

  /** Updating inside the middle part of `a + b + c` only touches `b`. */
  lemma UpdateMiddle<T>(a: seq<T>, b: seq<T>, c: seq<T>, k: int, x: T)
    requires 0 <= k < |b|
    ensures (a + b + c)[|a| + k := x] == a + b[k := x] + c
  {
  }
}

=== FILE: fixed_size_list.dfy ===
/**
 FixedSizeList: a list with a maximum size, backed by an array whose length
 never changes and a `fill` counter. It is also the chunk type of
 ChunkyArrayList.
 */
module FixedSizeList {
  import opened Common
  import opened ArrayBuffer
  import Seqs

  /** The `array` field (its length is the capacity) and the number of used slots. */
  datatype List<T> = List(slots: seq<Option<T>>, fill: int)

  /** `0 <= fill <= capacity`, and the used slots are exactly `[0, fill)`. */
  predicate Valid<T>(l: List<T>)
  {
    Filled(l.slots, l.fill)
  }

  /** The maximum size, fixed when the list is constructed. */
  function Capacity<T>(l: List<T>): nat
  {
    |l.slots|
  }

  /** The abstraction: the elements in list order. */
  function Contents<T>(l: List<T>): seq<T>
    requires Valid(l)
  {
    Elements(l.slots, l.fill)
  }

  /** `new FixedSizeList(maximumSize)`: an empty list of the given capacity. */
  function New<T>(maximumSize: nat): (l: List<T>)
    ensures Valid(l)
    ensures Contents(l) == []
    ensures Capacity(l) == maximumSize
  {
    List(NullArray(maximumSize), 0)
  }

  function IsEmpty<T>(l: List<T>): (r: bool)
    requires Valid(l)
    ensures r <==> Contents(l) == []
  {
    l.fill == 0
  }

  function Size<T>(l: List<T>): (n: int)
    requires Valid(l)
    ensures n == |Contents(l)|
  {
    l.fill
  }

  function IsFull<T>(l: List<T>): (r: bool)
    requires Valid(l)
    ensures r <==> |Contents(l)| == Capacity(l)
  {
    l.fill == |l.slots|
  }

  /** `checkNotEmpty` then `checkExclusiveIndex`, then read the slot. */
  function GetIndex<T>(l: List<T>, index: int): (r: Result<T>)
    requires Valid(l)
    ensures Contents(l) == [] ==> r == Err(EmptyList)
    ensures Contents(l) != [] && !(0 <= index < |Contents(l)|) ==> r == Err(BadIndex(index))
    ensures 0 <= index < |Contents(l)| ==> r == Ok(Contents(l)[index])
  {
    if l.fill == 0 then Err(EmptyList)
    else if !(0 <= index < l.fill) then Err(BadIndex(index))
    else Ok(l.slots[index].value)
  }

  /** `checkNotEmpty` then `checkExclusiveIndex`, then overwrite the slot. */
  function SetIndex<T>(l: List<T>, index: int, value: T): (r: Result<List<T>>)
    requires Valid(l)
    ensures Contents(l) == [] ==> r == Err(EmptyList)
    ensures Contents(l) != [] && !(0 <= index < |Contents(l)|) ==> r == Err(BadIndex(index))
    ensures 0 <= index < |Contents(l)| ==>
              && r.Ok? && Valid(r.value)
              && Contents(r.value) == Contents(l)[index := value]
              && Capacity(r.value) == Capacity(l)
  {
    if l.fill == 0 then Err(EmptyList)
    else if !(0 <= index < l.fill) then Err(BadIndex(index))
    else
      var l' := List(l.slots[index := Some(value)], l.fill);
      assert Contents(l') == Contents(l)[index := value];
      Ok(l')
  }

  /** `checkNotEmpty`, then the first slot. */
  function GetFront<T>(l: List<T>): (r: Result<T>)
    requires Valid(l)
    ensures Contents(l) == [] ==> r == Err(EmptyList)
    ensures Contents(l) != [] ==> r == Ok(Contents(l)[0])
  {
    if l.fill == 0 then Err(EmptyList) else Ok(l.slots[0].value)
  }

  /** `checkNotEmpty` and `checkExclusiveIndex(fill-1)`, then the last used slot. */
  function GetBack<T>(l: List<T>): (r: Result<T>)
    requires Valid(l)
    ensures Contents(l) == [] ==> r == Err(EmptyList)
    ensures Contents(l) != [] ==> r == Ok(Contents(l)[|Contents(l)| - 1])
  {
    if l.fill == 0 then Err(EmptyList)
    else if !(0 <= l.fill - 1 < l.fill) then Err(BadIndex(l.fill - 1))
    else Ok(l.slots[l.fill - 1].value)
  }

  /**
   Insertion with the right-shift loop. The method checks only for space; an
   index outside `[0, fill]` of a list with space is left to the array wrapper
   and is not part of this model.
   */
  function AddIndex<T>(l: List<T>, index: int, value: T): (r: Result<List<T>>)
    requires Valid(l)
    requires IsFull(l) || 0 <= index <= |Contents(l)|
    ensures IsFull(l) ==> r == Err(RanOutOfSpace)
    ensures !IsFull(l) ==>
              && r.Ok? && Valid(r.value)
              && Contents(r.value) == Seqs.Insert(Contents(l), index, value)
              && Capacity(r.value) == Capacity(l)
  {
    if l.fill < |l.slots| then
      Ok(List(InsertAt(l.slots, l.fill, index, value), l.fill + 1))
    else
      Err(RanOutOfSpace)
  }

  /** `addIndex(0, value)`. */
  function AddFront<T>(l: List<T>, value: T): (r: Result<List<T>>)
    requires Valid(l)
    ensures IsFull(l) ==> r == Err(RanOutOfSpace)
    ensures !IsFull(l) ==>
              && r.Ok? && Valid(r.value)
              && Contents(r.value) == [value] + Contents(l)
              && Capacity(r.value) == Capacity(l)
  {
    AddIndex(l, 0, value)
  }

  /** Store at slot `fill` and count it, when there is space. */
  function AddBack<T>(l: List<T>, value: T): (r: Result<List<T>>)
    requires Valid(l)
    ensures IsFull(l) ==> r == Err(RanOutOfSpace)
    ensures !IsFull(l) ==>
              && r.Ok? && Valid(r.value)
              && Contents(r.value) == Contents(l) + [value]
              && Capacity(r.value) == Capacity(l)
  {
    if l.fill < |l.slots| then
      var l' := List(l.slots[l.fill := Some(value)], l.fill + 1);
      assert Contents(l') == Contents(l) + [value];
      Ok(l')
    else
      Err(RanOutOfSpace)
  }

  /** `checkNotEmpty`, `checkExclusiveIndex`, then removal with the left-shift loop. */
  function RemoveIndex<T>(l: List<T>, index: int): (r: Result<(T, List<T>)>)
    requires Valid(l)
    ensures Contents(l) == [] ==> r == Err(EmptyList)
    ensures Contents(l) != [] && !(0 <= index < |Contents(l)|) ==> r == Err(BadIndex(index))
    ensures 0 <= index < |Contents(l)| ==>
              && r.Ok? && Valid(r.value.1)
              && r.value.0 == Contents(l)[index]
              && Contents(r.value.1) == Seqs.Delete(Contents(l), index)
              && Capacity(r.value.1) == Capacity(l)
  {
    if l.fill == 0 then Err(EmptyList)
    else if !(0 <= index < l.fill) then Err(BadIndex(index))
    else Ok((l.slots[index].value, List(RemoveAt(l.slots, l.fill, index), l.fill - 1)))
  }

  /** `removeIndex(0)`. */
  function RemoveFront<T>(l: List<T>): (r: Result<(T, List<T>)>)
    requires Valid(l)
    ensures Contents(l) == [] <==> r == Err(EmptyList)
    ensures Contents(l) != [] ==> r.Ok?
    ensures r.Ok? ==>
              && Valid(r.value.1)
              && [r.value.0] + Contents(r.value.1) == Contents(l)
              && Capacity(r.value.1) == Capacity(l)
  {
    RemoveIndex(l, 0)
  }

  /** Read the last used slot, null it and uncount it. */
  function RemoveBack<T>(l: List<T>): (r: Result<(T, List<T>)>)
    requires Valid(l)
    ensures Contents(l) == [] <==> r == Err(EmptyList)
    ensures Contents(l) != [] ==> r.Ok?
    ensures r.Ok? ==>
              && Valid(r.value.1)
              && Contents(r.value.1) + [r.value.0] == Contents(l)
              && Capacity(r.value.1) == Capacity(l)
  {
    if l.fill == 0 then Err(EmptyList)
    else if !(0 <= l.fill - 1 < l.fill) then Err(BadIndex(l.fill - 1))
    else
      var l' := List(l.slots[l.fill - 1 := None], l.fill - 1);
      assert Contents(l') + [l.slots[l.fill - 1].value] == Contents(l);
      Ok((l.slots[l.fill - 1].value, l'))
  }

  /** Inserting at the end is appending: `addIndex(fill, v)` builds the same list as `addBack(v)`. */
  lemma AddIndexAtEndIsAddBack<T>(l: List<T>, value: T)
    requires Valid(l)
    ensures AddIndex(l, |Contents(l)|, value) == AddBack(l, value)
  {
  }

  /** Removing at the last position is `removeBack`: both return the same element and list. */
  lemma RemoveIndexAtEndIsRemoveBack<T>(l: List<T>)
    requires Valid(l) && Contents(l) != []
    ensures RemoveIndex(l, |Contents(l)| - 1) == RemoveBack(l)
  {
  }

  /** `addIndex(i, v)` followed by `removeIndex(i)` returns `v` and the original contents. */
  lemma AddThenRemove<T>(l: List<T>, index: int, value: T)
    requires Valid(l) && !IsFull(l)
    requires 0 <= index <= |Contents(l)|
    ensures AddIndex(l, index, value).Ok?
    ensures var r := RemoveIndex(AddIndex(l, index, value).value, index);
            r.Ok? && r.value.0 == value && Contents(r.value.1) == Contents(l)
  {
    Seqs.DeleteInsert(Contents(l), index, value);
  }

  /** A list filled to capacity refuses every insertion and no insertion can overfill it. */
  lemma FullRefusesInsertion<T>(l: List<T>, index: int, value: T)
    requires Valid(l) && |Contents(l)| == Capacity(l)
    ensures AddIndex(l, index, value) == Err(RanOutOfSpace)
    ensures AddBack(l, value) == Err(RanOutOfSpace)
    ensures AddFront(l, value) == Err(RanOutOfSpace)
  {
  }
}

=== FILE: growable_list.dfy ===
/**
 GrowableList: a dynamic array. It starts with `START_SIZE` slots and, when
 full, replaces its array by one of twice the length before an insertion.
 Its read, overwrite and removal operations repeat FixedSizeList's line for
 line, as the two classes do; only insertion differs.
 */
module GrowableList {
  import opened Common
  import opened ArrayBuffer
  import Seqs

  /** The initial capacity. */
  const START_SIZE: nat := 10

  /** The current `array` (replaced on growth) and the number of used slots. */
  datatype List<T> = List(slots: seq<Option<T>>, fill: int)

  /** The capacities reachable from `START_SIZE` by doubling. */
  predicate GrownCapacity(c: int)
    decreases c
  {
    c == START_SIZE || (c > START_SIZE && c % 2 == 0 && GrownCapacity(c / 2))
  }

  /** `fill <= capacity`, the used slots are `[0, fill)`, and the capacity is `START_SIZE * 2^k`. */
  predicate Valid<T>(l: List<T>)
  {
    Filled(l.slots, l.fill) && GrownCapacity(|l.slots|)
  }

  function Capacity<T>(l: List<T>): nat
  {
    |l.slots|
  }

  /** The abstraction: the elements in list order. */
  function Contents<T>(l: List<T>): seq<T>
    requires Valid(l)
  {
    Elements(l.slots, l.fill)
  }

  /** `new GrowableList()`. */
  function New<T>(): (l: List<T>)
    ensures Valid(l)
    ensures Contents(l) == []
    ensures Capacity(l) == START_SIZE
  {
    List(NullArray(START_SIZE), 0)
  }

  function IsEmpty<T>(l: List<T>): (r: bool)
    requires Valid(l)
    ensures r <==> Contents(l) == []
  {
    l.fill == 0
  }

  function Size<T>(l: List<T>): (n: int)
    requires Valid(l)
    ensures n == |Contents(l)|
  {
    l.fill
  }

  /**
   `resizeArray`: when every slot is used, copy all slots into a fresh null
   array of twice the length; otherwise do nothing.
   */
  function ResizeArray<T>(l: List<T>): (r: List<T>)
    requires Valid(l)
    ensures Valid(r)
    ensures Capacity(l) <= |Contents(l)| ==> Capacity(r) == 2 * Capacity(l)
    ensures |Contents(l)| < Capacity(l) ==> r == l
    ensures r.fill == l.fill
    ensures forall k :: 0 <= k < |l.slots| ==> r.slots[k] == l.slots[k]
    ensures Contents(r) == Contents(l)
    ensures |Contents(r)| < Capacity(r)
  {
    if l.fill >= |l.slots| then
      var grown := CopyInto(NullArray(|l.slots| * 2), l.slots, 0);
      assert GrownCapacity(|grown|) by {
        assert |grown| / 2 == |l.slots|;
      }
      var r := List(grown, l.fill);
      assert Contents(r) == Contents(l);
      r
    else
      l
  }

  /** Grow if full, then store at slot `fill` and count it; never fails. */
  function AddBack<T>(l: List<T>, item: T): (r: List<T>)
    requires Valid(l)
    ensures Valid(r)
    ensures Contents(r) == Contents(l) + [item]
    ensures Capacity(r) == if |Contents(l)| == Capacity(l) then 2 * Capacity(l) else Capacity(l)
  {
    var g := if l.fill >= |l.slots| then ResizeArray(l) else l;
    var r := List(g.slots[g.fill := Some(item)], g.fill + 1);
    assert Contents(r) == Contents(g) + [item];
    r
  }

  /**
   `addIndex`: grow if full, then reject an index outside `[0, size]`, then
   insert with the right-shift loop. The growth happens before the check, so a
   rejected call still leaves the larger array behind: the result is the list
   after the call together with whether it threw.
   */
  function AddIndex<T>(l: List<T>, index: int, item: T): (r: (List<T>, Outcome))
    requires Valid(l)
    ensures Valid(r.0)
    ensures r.1 == Fail(BadIndex(index)) <==> !(0 <= index <= |Contents(l)|)
    ensures r.1.Fail? ==> r.1 == Fail(BadIndex(index)) && Contents(r.0) == Contents(l)
    ensures r.1.Pass? ==> Contents(r.0) == Seqs.Insert(Contents(l), index, item)
    ensures Capacity(r.0) == if |Contents(l)| == Capacity(l) then 2 * Capacity(l) else Capacity(l)
  {
    var g := ResizeArray(l);
    if index < 0 || index >= |g.slots| || index > g.fill then
      (g, Fail(BadIndex(index)))
    else
      (List(InsertAt(g.slots, g.fill, index, item), g.fill + 1), Pass)
  }

  /** `addIndex(0, item)`: never throws, since 0 is always a valid insertion index. */
  function AddFront<T>(l: List<T>, item: T): (r: List<T>)
    requires Valid(l)
    ensures Valid(r)
    ensures Contents(r) == [item] + Contents(l)
    ensures Capacity(r) == if |Contents(l)| == Capacity(l) then 2 * Capacity(l) else Capacity(l)
  {
    AddIndex(l, 0, item).0
  }

  /** `checkNotEmpty`, `checkExclusiveIndex`, then removal with the left-shift loop. */
  function RemoveIndex<T>(l: List<T>, index: int): (r: Result<(T, List<T>)>)
    requires Valid(l)
    ensures Contents(l) == [] ==> r == Err(EmptyList)
    ensures Contents(l) != [] && !(0 <= index < |Contents(l)|) ==> r == Err(BadIndex(index))
    ensures 0 <= index < |Contents(l)| ==>
              && r.Ok? && Valid(r.value.1)
              && r.value.0 == Contents(l)[index]
              && Contents(r.value.1) == Seqs.Delete(Contents(l), index)
              && Capacity(r.value.1) == Capacity(l)
  {
    if l.fill == 0 then Err(EmptyList)
    else if !(0 <= index < l.fill) then Err(BadIndex(index))
    else Ok((l.slots[index].value, List(RemoveAt(l.slots, l.fill, index), l.fill - 1)))
  }

  /** `checkNotEmpty`, then `removeIndex(0)`. */
  function RemoveFront<T>(l: List<T>): (r: Result<(T, List<T>)>)
    requires Valid(l)
    ensures Contents(l) == [] <==> r == Err(EmptyList)
    ensures Contents(l) != [] ==> r.Ok?
    ensures r.Ok? ==>
              && Valid(r.value.1)
              && [r.value.0] + Contents(r.value.1) == Contents(l)
              && Capacity(r.value.1) == Capacity(l)
  {
    if l.fill == 0 then Err(EmptyList) else RemoveIndex(l, 0)
  }

  /** `checkNotEmpty`, then `removeIndex(fill - 1)`. */
  function RemoveBack<T>(l: List<T>): (r: Result<(T, List<T>)>)
    requires Valid(l)
    ensures Contents(l) == [] <==> r == Err(EmptyList)
    ensures Contents(l) != [] ==> r.Ok?
    ensures r.Ok? ==>
              && Valid(r.value.1)
              && Contents(r.value.1) + [r.value.0] == Contents(l)
              && Capacity(r.value.1) == Capacity(l)
  {
    if l.fill == 0 then Err(EmptyList) else RemoveIndex(l, l.fill - 1)
  }

  /** `checkNotEmpty` then `checkExclusiveIndex`, then read the slot. */
  function GetIndex<T>(l: List<T>, index: int): (r: Result<T>)
    requires Valid(l)
    ensures Contents(l) == [] ==> r == Err(EmptyList)
    ensures Contents(l) != [] && !(0 <= index < |Contents(l)|) ==> r == Err(BadIndex(index))
    ensures 0 <= index < |Contents(l)| ==> r == Ok(Contents(l)[index])
  {
    if l.fill == 0 then Err(EmptyList)
    else if !(0 <= index < l.fill) then Err(BadIndex(index))
    else Ok(l.slots[index].value)
  }

  /** `checkNotEmpty` then `checkExclusiveIndex`, then overwrite the slot. */
  function SetIndex<T>(l: List<T>, index: int, value: T): (r: Result<List<T>>)
    requires Valid(l)
    ensures Contents(l) == [] ==> r == Err(EmptyList)
    ensures Contents(l) != [] && !(0 <= index < |Contents(l)|) ==> r == Err(BadIndex(index))
    ensures 0 <= index < |Contents(l)| ==>
              && r.Ok? && Valid(r.value)
              && Contents(r.value) == Contents(l)[index := value]
              && Capacity(r.value) == Capacity(l)
  {
    if l.fill == 0 then Err(EmptyList)
    else if !(0 <= index < l.fill) then Err(BadIndex(index))
    else
      var l' := List(l.slots[index := Some(value)], l.fill);
      assert Contents(l') == Contents(l)[index := value];
      Ok(l')
  }

  /** `checkNotEmpty`, then `getIndex(0)`. */
  function GetFront<T>(l: List<T>): (r: Result<T>)
    requires Valid(l)
    ensures Contents(l) == [] ==> r == Err(EmptyList)
    ensures Contents(l) != [] ==> r == Ok(Contents(l)[0])
  {
    if l.fill == 0 then Err(EmptyList) else GetIndex(l, 0)
  }

  /** `checkNotEmpty`, then `getIndex(fill - 1)`. */
  function GetBack<T>(l: List<T>): (r: Result<T>)
    requires Valid(l)
    ensures Contents(l) == [] ==> r == Err(EmptyList)
    ensures Contents(l) != [] ==> r == Ok(Contents(l)[|Contents(l)| - 1])
  {
    if l.fill == 0 then Err(EmptyList) else GetIndex(l, l.fill - 1)
  }

  /** Every reachable capacity is at least `START_SIZE` and a power-of-two multiple of it. */
  lemma {:induction false} GrownCapacityShape(c: int)
    requires GrownCapacity(c)
    ensures c >= START_SIZE && c % START_SIZE == 0
    decreases c
  {
    if c != START_SIZE {
      GrownCapacityShape(c / 2);
    }
  }

  /** `addIndex(i, v)` followed by `removeIndex(i)` returns `v` and the original contents. */
  lemma AddThenRemove<T>(l: List<T>, index: int, item: T)
    requires Valid(l)
    requires 0 <= index <= |Contents(l)|
    ensures AddIndex(l, index, item).1 == Pass
    ensures var r := RemoveIndex(AddIndex(l, index, item).0, index);
            r.Ok? && r.value.0 == item && Contents(r.value.1) == Contents(l)
  {
    Seqs.DeleteInsert(Contents(l), index, item);
  }

  /** Appending is inserting at the end: both leave the same contents. */
  lemma AddBackIsAddIndexAtEnd<T>(l: List<T>, item: T)
    requires Valid(l)
    ensures AddIndex(l, |Contents(l)|, item).1 == Pass
    ensures Contents(AddIndex(l, |Contents(l)|, item).0) == Contents(AddBack(l, item))
  {
  }
}

=== FILE: singly_linked_list.dfy ===
/**
 SinglyLinkedList: a chain of nodes starting at `start`. The chain is the
 sequence of the nodes' values, `[]` for a null `start`; a walk along `next`
 pointers is a recursive function that follows the sequence one node per
 call, so its contract states what the walk leaves behind.
 */
module SinglyLinkedList {
  import opened Common
  import Seqs

  /** The `next` walk of `size()`, counting the nodes from here on. */
  function CountNodes<T>(nodes: seq<T>, count: int): (n: int)
    ensures n == count + |nodes|
    decreases |nodes|
  {
    if |nodes| == 0 then count else CountNodes(nodes[1..], count + 1)
  }

  /** `size()`: the number of nodes in the chain. */
  function Size<T>(nodes: seq<T>): (n: int)
    ensures n == |nodes|
  {
    CountNodes(nodes, 0)
  }

  /** `isEmpty()`: `start` is null, that is, the chain has no node. */
  function IsEmpty<T>(nodes: seq<T>): (r: bool)
    ensures r <==> Size(nodes) == 0
  {
    nodes == []
  }

  /** `removeFront`: `checkNotEmpty`, then `start` moves to its successor. */
  function RemoveFront<T>(nodes: seq<T>): (r: Result<(T, seq<T>)>)
    ensures nodes == [] <==> r == Err(EmptyList)
    ensures nodes != [] ==> r.Ok?
    ensures r.Ok? ==> [r.value.0] + r.value.1 == nodes
  {
    if nodes == [] then Err(EmptyList) else Ok((nodes[0], nodes[1..]))
  }

  /**
   The walk of `removeBack` from a node with at least one successor: advance
   while `t.next.next != null`, then cut `t.next` off.
   */
  function CutLast<T>(nodes: seq<T>): (r: (T, seq<T>))
    requires |nodes| >= 2
    ensures r.1 + [r.0] == nodes
    decreases |nodes|
  {
    if |nodes| == 2 then (nodes[1], [nodes[0]])
    else
      var (v, rest) := CutLast(nodes[1..]);
      (v, [nodes[0]] + rest)
  }

  /** `removeBack`: `checkNotEmpty`; a single node empties the chain, otherwise the walk. */
  function RemoveBack<T>(nodes: seq<T>): (r: Result<(T, seq<T>)>)
    ensures nodes == [] <==> r == Err(EmptyList)
    ensures nodes != [] ==> r.Ok?
    ensures r.Ok? ==> r.value.1 + [r.value.0] == nodes
  {
    if nodes == [] then Err(EmptyList)
    else if |nodes| == 1 then Ok((nodes[0], []))
    else Ok(CutLast(nodes))
  }

  /**
   The walk shared by `removeIndex`: advance `steps` nodes from `start`, then
   unlink the node after the one reached.
   */
  function UnlinkAfter<T>(nodes: seq<T>, steps: int): (r: (T, seq<T>))
    requires 0 <= steps < |nodes| - 1
    ensures r.0 == nodes[steps + 1]
    ensures r.1 == Seqs.Delete(nodes, steps + 1)
    decreases steps
  {
    if steps == 0 then (nodes[1], [nodes[0]] + nodes[2..])
    else
      var (v, rest) := UnlinkAfter(nodes[1..], steps - 1);
      (v, [nodes[0]] + rest)
  }

  /**
   `removeIndex` as written: `checkNotEmpty`, index 0 is `removeFront`, any
   other index walks `max(index - 1, 0)` nodes (the loop `for (i = 1; i < index; i++)`)
   and unlinks the next one. There is no bounds check: an index at or past the
   end dereferences null and is excluded here, and a negative index on a chain
   of two or more nodes silently removes the second node.
   */
  function RemoveIndexAsWritten<T>(nodes: seq<T>, index: int): (r: Result<(T, seq<T>)>)
    requires nodes == [] || (index < |nodes| && (index >= 0 || |nodes| >= 2))
    ensures nodes == [] ==> r == Err(EmptyList)
    ensures nodes != [] && index < 0 ==> r == Ok((nodes[1], Seqs.Delete(nodes, 1)))
    ensures 0 <= index < |nodes| ==> r == Ok((nodes[index], Seqs.Delete(nodes, index)))
  {
    if nodes == [] then Err(EmptyList)
    else if index == 0 then
      assert Seqs.Delete(nodes, 0) == nodes[1..];
      RemoveFront(nodes)
    else Ok(UnlinkAfter(nodes, if index - 1 > 0 then index - 1 else 0))
  }

  /**
   `removeIndex` with the bounds check every other positional operation of
   the class makes: BadIndexError for an index outside `[0, size)`.
   */
  function RemoveIndex<T>(nodes: seq<T>, index: int): (r: Result<(T, seq<T>)>)
    ensures nodes == [] ==> r == Err(EmptyList)
    ensures nodes != [] && !(0 <= index < |nodes|) ==> r == Err(BadIndex(index))
    ensures 0 <= index < |nodes| ==> r == Ok((nodes[index], Seqs.Delete(nodes, index)))
  {
    if nodes == [] then Err(EmptyList)
    else if !(0 <= index < |nodes|) then Err(BadIndex(index))
    else RemoveIndexAsWritten(nodes, index)
  }

  /** `addFront`: a new node in front of `start`. */
  function AddFront<T>(nodes: seq<T>, item: T): (r: seq<T>)
    ensures |r| == |nodes| + 1 && r[0] == item && r[1..] == nodes
  {
    [item] + nodes
  }

  /** The walk of `addBack` from the first node: advance while `now.next != null`, then link a new node. */
  function LinkLast<T>(nodes: seq<T>, item: T): (r: seq<T>)
    requires |nodes| >= 1
    ensures r == nodes + [item]
    decreases |nodes|
  {
    if |nodes| == 1 then [nodes[0], item] else [nodes[0]] + LinkLast(nodes[1..], item)
  }

  /** `addBack`: on an empty chain the new node becomes `start`, otherwise the walk. */
  function AddBack<T>(nodes: seq<T>, item: T): (r: seq<T>)
    ensures r == nodes + [item]
  {
    if nodes == [] then [item] else LinkLast(nodes, item)
  }

  /** The walk of `addIndex`: advance `steps` nodes from `start`, then link a new node after the one reached. */
  function LinkAfter<T>(nodes: seq<T>, steps: int, item: T): (r: seq<T>)
    requires 0 <= steps < |nodes|
    ensures r == Seqs.Insert(nodes, steps + 1, item)
    decreases steps
  {
    if steps == 0 then [nodes[0], item] + nodes[1..]
    else [nodes[0]] + LinkAfter(nodes[1..], steps - 1, item)
  }

  /** `addIndex`: BadIndexError outside `[0, size]`, `addFront` at 0, otherwise the walk. */
  function AddIndex<T>(nodes: seq<T>, index: int, item: T): (r: Result<seq<T>>)
    ensures !(0 <= index <= |nodes|) <==> r == Err(BadIndex(index))
    ensures 0 <= index <= |nodes| ==> r == Ok(Seqs.Insert(nodes, index, item))
  {
    if index > Size(nodes) || index < 0 then Err(BadIndex(index))
    else if index == 0 then
      assert Seqs.Insert(nodes, 0, item) == [item] + nodes;
      Ok(AddFront(nodes, item))
    else Ok(LinkAfter(nodes, index - 1, item))
  }

  /** `getFront`: `checkNotEmpty`, then the value of `start`. */
  function GetFront<T>(nodes: seq<T>): (r: Result<T>)
    ensures nodes == [] ==> r == Err(EmptyList)
    ensures nodes != [] ==> r == Ok(nodes[0])
  {
    if nodes == [] then Err(EmptyList) else Ok(nodes[0])
  }

  /** The walk of `getBack`: advance while `now.next != null`, then read the node reached. */
  function LastValue<T>(nodes: seq<T>): (r: T)
    requires |nodes| >= 1
    ensures r == nodes[|nodes| - 1]
    decreases |nodes|
  {
    if |nodes| == 1 then nodes[0] else LastValue(nodes[1..])
  }

  /** `getBack`: `checkNotEmpty`, then the walk to the last node. */
  function GetBack<T>(nodes: seq<T>): (r: Result<T>)
    ensures nodes == [] ==> r == Err(EmptyList)
    ensures nodes != [] ==> r == Ok(nodes[|nodes| - 1])
  {
    if nodes == [] then Err(EmptyList) else Ok(LastValue(nodes))
  }

  /** The walk of `getIndex`: `at` counts the nodes passed; the node where `at == index` answers. */
  function FindAt<T>(nodes: seq<T>, at: int, index: int): (r: Result<T>)
    ensures at <= index < at + |nodes| ==> r == Ok(nodes[index - at])
    ensures !(at <= index < at + |nodes|) ==> r == Err(BadIndex(index))
    decreases |nodes|
  {
    if |nodes| == 0 then Err(BadIndex(index))
    else if at == index then Ok(nodes[0])
    else FindAt(nodes[1..], at + 1, index)
  }

  /** `getIndex`: `checkNotEmpty`, then the counting walk; BadIndexError when it runs off the end. */
  function GetIndex<T>(nodes: seq<T>, index: int): (r: Result<T>)
    ensures nodes == [] ==> r == Err(EmptyList)
    ensures nodes != [] && !(0 <= index < |nodes|) ==> r == Err(BadIndex(index))
    ensures 0 <= index < |nodes| ==> r == Ok(nodes[index])
  {
    if nodes == [] then Err(EmptyList) else FindAt(nodes, 0, index)
  }

  /**
   The walk of `setIndex`: it visits every node, `curr` counting them, and
   overwrites the value of the node where `curr == index`.
   */
  function Overwrite<T>(nodes: seq<T>, curr: int, index: int, value: T): (r: seq<T>)
    ensures |r| == |nodes|
    ensures forall k :: 0 <= k < |nodes| ==> r[k] == if curr + k == index then value else nodes[k]
    decreases |nodes|
  {
    if |nodes| == 0 then []
    else [if curr == index then value else nodes[0]] + Overwrite(nodes[1..], curr + 1, index, value)
  }

  /** `setIndex`: `checkNotEmpty`, BadIndexError outside `[0, size)`, then the overwriting walk. */
  function SetIndex<T>(nodes: seq<T>, index: int, value: T): (r: Result<seq<T>>)
    ensures nodes == [] ==> r == Err(EmptyList)
    ensures nodes != [] && !(0 <= index < |nodes|) ==> r == Err(BadIndex(index))
    ensures 0 <= index < |nodes| ==> r == Ok(nodes[index := value])
  {
    if nodes == [] then Err(EmptyList)
    else if index > Size(nodes) - 1 || index < 0 then Err(BadIndex(index))
    else
      var r := Overwrite(nodes, 0, index, value);
      assert r == nodes[index := value];
      Ok(r)
  }

  /** `addIndex(i, x)` followed by `removeIndex(i)` gives back `x` and the original chain. */
  lemma AddThenRemove<T>(nodes: seq<T>, index: int, item: T)
    requires 0 <= index <= |nodes|
    ensures AddIndex(nodes, index, item).Ok?
    ensures RemoveIndex(AddIndex(nodes, index, item).value, index) == Ok((item, nodes))
  {
    Seqs.DeleteInsert(nodes, index, item);
  }

  /** The front and back insertions are `addIndex` at the two ends. */
  lemma EndsAreIndices<T>(nodes: seq<T>, item: T)
    ensures AddIndex(nodes, 0, item) == Ok(AddFront(nodes, item))
    ensures AddIndex(nodes, |nodes|, item) == Ok(AddBack(nodes, item))
  {
    assert Seqs.Insert(nodes, |nodes|, item) == nodes + [item];
  }

  /** As written, `removeIndex(-1)` on a chain of three nodes removes the second node instead of throwing. */
  lemma NegativeIndexRemovesSecond<T>(a: T, b: T, c: T)
    ensures RemoveIndexAsWritten([a, b, c], -1) == Ok((b, [a, c]))
    ensures RemoveIndex([a, b, c], -1) == Err(BadIndex(-1))
  {
    assert Seqs.Delete([a, b, c], 1) == [a, c];
  }
}
